=== FILE: README.md ===
# VendaJá STP — a Dafny model of the listing core

VendaJá STP is a classifieds web application for São Tomé and Príncipe. Signed-in
sellers publish listings with photos, and buyers browse, search and contact them
over WhatsApp. Free accounts may publish two listings with up to three photos
each. Pro accounts get seven photos per listing.

This project models the logic behind that flow as pure functions over immutable
data. It then proves what the code promises about it.

- **Store.** The document store is two maps: `users` (uid to profile) and
  `listings` (id to listing). Documents are schemaless, so every field a writer may
  omit is an `Option`.
- **Listing lifecycle** (`Listings`). Creation runs, in order, input validation,
  the free-plan quota and photo cap, the base document, the photo upload, the image
  patch and the counter increment. The model also covers the owner-checked trimmed
  partial update and the owner-checked delete.
- **Profiles** (`Users`, `Auth`). The model covers create-if-absent, the merge
  write on sign-in, snapshot normalisation into the profile the pages read, and
  sign-out.
- **Photo storage** (`Storage`). This is the path scheme
  `listings/{uid}/{listingId}/{i}-{safeName}`, with URLs and paths aligned with the
  input files.
- **Form logic**. The new-listing form (`NewForm`, with the price pattern in
  `PricePattern`) covers the photo-list editors, the submit guard and the ordered
  submit checks. The earlier new-listing page is `NewPage`. The reusable photo
  picker is `Uploader`.
- **Feed** (`Feed`, `Cards`). This is the search and category filter, the category
  list, the WhatsApp link, the price text, the category label, the cover image and
  the currency suffix.
- **Local app state** (`LocalApp`, `ToastFlag`). This is the browser-only provider
  (user ids, newest-first listings, log in and log out) and the one-shot toast
  hand-off.
- **Shared modules.** `Text` models the JavaScript string primitives the code
  relies on: `\s`, `trim`, `toLowerCase`, `\d`, `\w`, `startsWith` and `includes`.
  `Seqs` models the array idioms: filter, `slice(0, n)`, `splice` with its start
  normalisation, filter-by-index, and swap. `Decimal` models natural numbers and
  their decimal digits.

Firebase calls become parameters:
- the id `addDoc` assigns is `newId`, required to be fresh;
- `serverTimestamp()` is an opaque `now`;
- the storage upload is a function from (path, file) to an optional download URL.

Where the documented behaviour and the code differ, the model follows the code:
- Over-cap photo lists are rejected at creation (lib/listings.ts:166-174), not
  truncated.
- The quota read (lib/listings.ts:159-169) and the increment
  (lib/listings.ts:209-211) are two separate transactions. The model runs them as
  separate steps, and `Listings.InterleavedFreeCreatesOvershootQuota` shows two
  free creations passing the quota check and leaving the counter at 3.
- The feed's category filter is exact string equality, with no case or accent
  folding.
- The sign-in merge write sets `plan` to `"free"` every time, and the modelled
  sign-in listener `Auth.OnSignedIn` runs it as written, so a pro user reads as
  free after signing in (see Findings). The corrected listener is
  `Auth.OnSignedInCorrected`.

## Model

| member | source | states |
|---|---|---|
| Listings.CleanUndefined | lib/listings.ts:58-64 | a key survives exactly when its value is defined, and its value is unchanged |
| Listings.ValidateCreate | lib/listings.ts:145-150 | the request passes exactly when the uid is non-empty, title, category, location and description are non-blank after trim, and there is at least one file; otherwise the error is the first failing check in source order |
| Text.TrimIsMiddle | lib/listings.ts:179-183 | `trim` removes only white space at the two ends: the result is a contiguous middle of the input with only white space around it |
| Listings.PlanGate | lib/listings.ts:152-174 | passes exactly when the photo count is within the plan's cap (3 free, 7 pro) and, on the free plan, the stored counter (missing reads as 0) is below 2; the quota is checked before the photo cap, and an over-cap list is an error, never truncated |
| Listings.OptionalTrimmed | lib/listings.ts:187 | the WhatsApp number is stored exactly when it is non-blank, and then trimmed |
| Listings.IncrementFreeCounter | lib/listings.ts:207-212 | succeeds exactly when the profile exists; the counter rises by one (missing counts as 0), and no other field and no other profile changes |
| Listings.FinishCreate | lib/listings.ts:207-214 | the last step leaves listings alone; on pro nothing changes; on free it fails with no write exactly when the profile is missing, else the counter rises by one |
| Listings.CommitCreate | lib/listings.ts:176-214 | only the new id is added to the listings; success exactly when every upload succeeds and (free plan) the profile exists; the error is UploadFailed exactly when some upload fails, and then the base document stays with no counter change; on success the document holds the uploaded urls and paths |
| Listings.CreateListingWithPlanLimits | lib/listings.ts:111-215 | a failed check returns its error and writes nothing; success exactly when validation, plan gate and every upload pass and a free user's profile exists; when the checks pass and an upload fails, the error is UploadFailed, no profile changes and the base document is stored at the new id; any write touches only the new id among the listings |
| Listings.CreateUploadFailedLeavesBase | lib/listings.ts:176-205 | a failed upload leaves the listing at the new id with no images, an empty path list, the owner, the trimmed fields, active status, plan and creation time, and no profile changed |
| Listings.CreateStoresListing | lib/listings.ts:177-205 | a created listing holds the owner, the trimmed non-empty fields, condition only for products (default Novo), service type only for services (default Ambos), the number only if non-blank, one url per photo within the plan cap, the storage paths in file order, active status, plan and creation time |
| Listings.BaseDoc | lib/listings.ts:177-193 | the document written before any upload; `Listings.CreateStoresListing` states what the created listing holds |
| Listings.CreateCountsFreeListings | lib/listings.ts:158-212 | a successful free creation raises that user's counter by exactly one and to at most 2, leaving every other profile as it was; a pro creation changes no profile; exactly one listing id is added |
| Listings.CommitTouchesOneProfile | lib/listings.ts:195-212 | the writes after the checks add exactly the new listing id and leave every other user's profile as it was |
| Listings.InterleavedFreeCreatesOvershootQuota | lib/listings.ts:158-212 | two free creations that both read a count of 1 both pass the check and both succeed, leaving the count at 3, past the limit |
| Listings.ProfileMissingKeepsListing | lib/listings.ts:195-212 | when the free user's profile is missing, the call fails at the increment but the listing and its photos remain and the counter reads 0 |
| Listings.Cleaned | lib/listings.ts:231-238 | the update object has a key exactly for each field the patch gives, holding the trimmed text or the status |
| Listings.ApplyCleaned | lib/listings.ts:231-240 | the merge writes each given field's trimmed value, keeps each absent field, and leaves every other field of the document unchanged |
| Listings.UpdateListing | lib/listings.ts:224-240 | not found exactly when the id is absent, forbidden exactly when the owner differs; otherwise only that listing changes, only in the six editable fields, each given text trimmed |
| Listings.UpdateIdempotent | lib/listings.ts:224-240 | applying the same patch a second time changes nothing |
| Listings.UpdateEmptyPatch | lib/listings.ts:231-240 | an empty patch from the owner leaves the store as it was |
| Listings.DeleteListing | lib/listings.ts:249-267 | a missing id is a silent no-op; another owner's listing is refused with the store intact; otherwise only that document goes, profiles stay, and the recorded image paths (none if absent) are released |
| Listings.DeleteIdempotent | lib/listings.ts:249-251 | deleting again finds nothing and changes nothing |
| Listings.CreateThenDelete | lib/listings.ts:195-259 | deleting a just-created listing releases exactly the paths its photos were uploaded to and restores the listings collection, but the quota stays consumed |
| Storage.SafeName | lib/storage.ts:13 | the name carries no white space, is no longer than before, and is unchanged when it had none |
| Storage.SafeNameCollapsesRun | lib/storage.ts:13 | a maximal white-space run between two parts becomes exactly one hyphen |
| Storage.PathsDistinct | lib/storage.ts:14 | two files of one listing at different indices get different paths, whatever their names |
| Storage.PathFor | lib/storage.ts:14 | the path of one file; `Storage.PathsDistinct` proves different indices give different paths |
| Storage.Paths | lib/storage.ts:12-14 | one path per file, in input order, built from that file's index and sanitised name |
| Storage.UploadEach | lib/storage.ts:11-22 | succeeds exactly when every upload succeeds, and then url i is what the upload of file i returned |
| Storage.UploadListingImages | lib/storage.ts:4-28 | succeeds exactly when every upload succeeds; then urls, paths and files have one length, and url i and path i both belong to file i |
| Users.EnsureUserDoc | lib/users.ts:4-15 | a missing profile is created with the email, plan "free" and counter 0; an existing one is left as it was; no other profile and no listing changes |
| Users.EnsureUserDocIdempotent | lib/users.ts:4-15 | a second call, with any email and time, changes nothing |
| Users.EnsureUserDocCommutes | lib/users.ts:4-15 | calls for two different users give the same store in either order |
| Auth.NormalizeProfile | context/AuthContext.tsx:72-80 | the plan is pro exactly when the stored plan is exactly "pro"; a missing counter reads 0; a missing document reads as free with 0 |
| Auth.NormalizeStored | context/AuthContext.tsx:73-80 | normalising the stored form of a profile gives that profile back |
| Auth.NormalizePlanIsExact | context/AuthContext.tsx:76 | any stored plan other than exactly "pro" (or none) reads as free |
| Auth.SignInMergeAsWritten | context/AuthContext.tsx:60-70 | the merge as written sets plan "free" and the creation time and keeps the counter, number and email; only that user's profile changes |
| Auth.SignInDemotesPro | context/AuthContext.tsx:62-80 | with the merge as written, a pro user who signs in reads as free afterwards, though counter and number survive |
| Auth.SignInMerge | context/AuthContext.tsx:62-70 | the corrected merge: only that user's profile changes; a new profile gets plan "free" and the current time; an existing one keeps its plan ("free" when missing) and creation time (the current time when missing), and its email, counter and number |
| Auth.SignInMergeKeepsProfile | context/AuthContext.tsx:62-70 | the corrected merge changes nothing for a profile with plan and creation time; for a profile with a plan, everything the app reads except the creation time (which it fills when missing) stays the same; a second merge changes nothing |
| Auth.OnSignedIn | context/AuthContext.tsx:44-70 | on sign-in the user is recorded, loading starts, the previous profile stays until a snapshot, and the unconditional merge write runs as written |
| Auth.OnSignedInCorrected | context/AuthContext.tsx:44-70 | the same listener with the corrected merge write that fills `plan` and `createdAt` only where missing |
| Auth.OnProfileSnapshot | context/AuthContext.tsx:72-83 | a snapshot for the signed-in user exposes the normalised profile and ends loading; with no user nothing changes |
| Auth.OnSignedOut | context/AuthContext.tsx:52-56 | on sign-out user and profile are cleared and loading ends |
| Auth.SignInThenSnapshot | context/AuthContext.tsx:58-83 | after sign-in and its first snapshot the stored counter and contact are exposed, the plan reads free whatever was stored, the creation time is the sign-in time, and loading is over; a user with no profile reads 0 |
| Auth.SignInFlowDemotesPro | context/AuthContext.tsx:58-83 | a pro user who signs in reads, on the next snapshot, exactly their old profile with plan free and the new creation time; with the corrected listener they stay pro |
| Auth.SignedOutStaysCleared | context/AuthContext.tsx:45-56 | once signed out, no snapshot brings a profile back |
| NewForm.PlanOf | app/new/ui.tsx:32 | the plan is pro exactly when the profile's plan is pro |
| NewForm.MaxPhotos | app/new/ui.tsx:33 | the form's photo cap is 7 exactly on pro, 3 on free |
| NewForm.MaxPhotosIsCreationCap | app/new/ui.tsx:33 | the form's cap equals the cap creation enforces for the same plan |
| NewForm.PickFiles | app/new/ui.tsx:88-98 | no file list changes nothing; otherwise the list is the first min(cap, total) files of old then picked, old files keep their places while within the cap, and the notice shows exactly when something was cut |
| NewForm.RemoveFile | app/new/ui.tsx:100-102 | the index-filter removes exactly the element at that index, and an index outside the list removes nothing |
| NewForm.MoveFile | app/new/ui.tsx:104-114 | swaps the photo with its neighbour in the given direction when there is one, else leaves the list; the result is a permutation |
| NewForm.MoveFileBack | app/new/ui.tsx:104-114 | moving a photo and moving it back restores the list |
| NewForm.FirstMissing | app/new/ui.tsx:119-125 | nothing is missing exactly when the button guard holds; each error is reported exactly when every earlier check passes and its own fails, in the order session, title, category, location, description, number, photos |
| NewForm.CanSubmit | app/new/ui.tsx:59-68 | the button guard; `NewForm.CanSubmitIffNothingMissing` proves it agrees with the submit checks |
| NewForm.CanSubmitIffNothingMissing | app/new/ui.tsx:59-68 | the submit button is enabled exactly when none of the seven presence checks fails |
| NewForm.DigitsOnly | app/new/ui.tsx:20-22 | the cleaned number holds only digits and '+', keeps every digit and '+' of the input, is an order-preserving subsequence of it, and has no white space |
| NewForm.DigitsOnlyPerCharacter | app/new/ui.tsx:20-22 | cleaning keeps a digit or '+' as it is, drops any other character, and the cleaned halves of a number join into the cleaned whole, which fixes order and multiplicity |
| NewForm.DigitsOnlyIdempotent | app/new/ui.tsx:20-22 | cleaning a cleaned number changes nothing |
| NewForm.Submit | app/new/ui.tsx:119-153 | the first failing presence check is reported; then a non-blank price must match the pattern, then the cleaned number needs 7 digits; a request is sent exactly when all pass, with trimmed fields, condition only for products, service type only for services and the cleaned number |
| NewForm.SubmittedRequestIsValid | app/new/ui.tsx:119-153 | a request the form sends always passes creation's own input checks, fits the photo cap when the form's list does, and keeps its number as sent |
| NewForm.PickedFilesFitCreation | app/new/ui.tsx:88-98 | photos picked in the form never exceed what creation accepts for the same plan |
| PricePattern.MatchPriceIffShape | app/new/ui.tsx:127 | the left-to-right matcher of `^\d+([.,]\d+)?$` accepts exactly the digit runs with at most one separator followed by further digits |
| PricePattern.PriceExamples | app/new/ui.tsx:127-128 | "1500", "12,50" and "0.5" match; "12,", ",5", "1 500" and "" do not |
| Seqs.FilterIndexRemoves | app/new/ui.tsx:101 | filtering by index removes exactly that index, or nothing when it is not a position |
| Seqs.CappedAppend | app/new/ui.tsx:91-97 | appending under a cap keeps a prefix of the concatenation, of length min(cap, total), with the old elements in place while they fit |
| Seqs.SpliceOutVersusRemoveIndex | app/components/ImageUploader.tsx:58-62 | `splice(k, 1)` and the index filter agree for k >= 0; for negative k, splice counts from the end while the filter removes nothing |
| Uploader.AddFiles | app/components/ImageUploader.tsx:43-56 | nothing is reported exactly when there is no list or it holds no image; otherwise the value is a prefix of old files then incoming images, of length min(cap, total), and every added file is an image |
| Uploader.AddFilesKeepsExisting | app/components/ImageUploader.tsx:43-56 | within the cap, adding keeps every old file in place, stays within the cap, and adds at least one file while there is room |
| Uploader.AddFilesDefaultCap | app/components/ImageUploader.tsx:23 | with the default cap of ten, a list within the cap stays within it and keeps its old files first |
| Uploader.RemoveAt | app/components/ImageUploader.tsx:58-62 | removes exactly the element at the normalised splice start and keeps the rest in order; a start past the end removes nothing |
| Uploader.Move | app/components/ImageUploader.tsx:64-72 | an out-of-range target changes nothing; otherwise the moved file ends at the target, the others keep their relative order, and the result is a permutation |
| Uploader.MoveBack | app/components/ImageUploader.tsx:64-72 | moving a file one place up and back down restores the list |
| NewPage.PickPhotos | app/new/page.tsx:52-59 | an empty pick changes nothing; otherwise the first min(3, total) of old then picked, with old photos in place |
| NewPage.RemovePhoto | app/new/page.tsx:61-63 | removes exactly the photo at that index, never grows the list |
| NewPage.PhotosStayCapped | app/new/page.tsx:24-63 | picking and removing keep the list at three photos or fewer |
| NewPage.PickPhotosIsFreePick | app/new/page.tsx:56 | the page's pick is the new form's pick with the free-plan cap |
| NewPage.Submit | app/new/page.tsx:65-88 | without a user id nothing is uploaded or published; a failed upload publishes nothing; otherwise the record carries the trimmed fields, exactly the URLs the upload returned, and the user id |
| NewPage.CanSubmit | app/new/page.tsx:40-50 | the button guard; `NewPage.EnabledSubmitPublishesTrimmed` proves what an enabled submit publishes |
| NewPage.EnabledSubmitPublishesTrimmed | app/new/page.tsx:40-88 | an enabled submit by a signed-in user, whose upload returns one URL per photo, publishes non-empty, already trimmed required fields and at least one photo URL |
| Feed.Filtered | app/listings/page.tsx:57-66 | a listing is shown exactly when it matches: same category if one is chosen, and the trimmed lower-cased query occurs in its lower-cased text if one is typed |
| Feed.Matches | app/listings/page.tsx:57-66 | the per-listing test `Feed.Filtered` applies; `Feed.CategoryIsExact` and `Feed.QueryFindsTitle` state what it accepts |
| Feed.FilteredIsSubsequence | app/listings/page.tsx:57-66 | the feed keeps the fetched order: the result is a subsequence |
| Feed.NoFiltersShowsAll | app/listings/page.tsx:60-63 | no category and a blank query show every listing |
| Feed.FilteredIdempotent | app/listings/page.tsx:57-66 | filtering the filtered feed again changes nothing |
| Feed.FilterComposes | app/listings/page.tsx:59-64 | filtering by category and then by query is filtering by both |
| Feed.CategoryIsExact | app/listings/page.tsx:60 | every shown listing has exactly the chosen category |
| Feed.QueryFindsTitle | app/listings/page.tsx:58-63 | a listing whose lower-cased title contains the key is shown |
| Feed.Categories | app/listings/page.tsx:34-38 | every listing's category appears, exactly once, and nothing else |
| Feed.HasFilters | app/listings/page.tsx:68 | the "filters active" flag; `Feed.NoFlagNoFilter` proves the feed is unfiltered without it |
| Feed.NoFlagNoFilter | app/listings/page.tsx:57-68 | when the "filters active" flag is off the feed is unfiltered |
| Feed.WaLink | app/listings/page.tsx:194-197 | a link exists exactly for a non-blank number and is `https://wa.me/` followed by its digits |
| Feed.WaLinkOfCleanedNumber | app/listings/page.tsx:194-197 | a number cleaned by the form links to the same chat as the number as typed |
| Cards.PriceText | app/listings/ui.tsx:9-15 | blank shows nothing; digits worth 0 (or none) show the trimmed text; otherwise the positive number the digits form |
| Cards.PriceTextOfNumber | app/listings/ui.tsx:12-14 | a price typed as a plain positive number shows as that number, whose rendering is the typed digits |
| Cards.PriceTextZeroAsTyped | app/listings/ui.tsx:12-13 | a price whose digits are all zero, or which has none, shows as typed |
| Cards.ShowsStn | app/listings/ui.tsx:47 | the "STN" suffix guard; `Cards.StnIffPriceShown` ties it to the price text |
| Cards.StnIffPriceShown | app/listings/ui.tsx:47 | the "STN" suffix appears exactly when a price text is shown |
| Cards.FirstWithId | app/listings/ui.tsx:20 | the position of the first entry with the id, or the table length when none has it |
| Cards.FindLabel | app/listings/ui.tsx:20 | no label exactly when no entry has the id; otherwise the label of the first entry with it |
| Cards.CategoryLabel | app/listings/ui.tsx:17-21 | blank gives ""; otherwise the label of the first entry with the trimmed id, or the trimmed id when there is none |
| Cards.CategoryLabelIgnoresPadding | app/listings/ui.tsx:18 | surrounding white space does not change the label |
| Cards.Cover | app/listings/ui.tsx:24 | the explicit image if non-empty, else the first photo if non-empty, else nothing |
| LocalApp.IdSource | app/providers.tsx:39 | the number if non-empty, else the name if non-empty, else "user" |
| LocalApp.MakeUserId | app/providers.tsx:38-41 | the id has no white space and only characters of `[a-z0-9_+]`, and is exactly the `[\w+]` characters of the trimmed, lower-cased source (number, else name, else "user") in order |
| LocalApp.MakeUserIdDefault | app/providers.tsx:39 | with neither number nor name the id is "user" |
| LocalApp.MakeUserIdFallsBackToName | app/providers.tsx:39 | without a number the id is the one the name gives when typed as the number |
| LocalApp.MakeUserIdFixpoint | app/providers.tsx:38-41 | a non-empty id given as the number comes back unchanged |
| LocalApp.MakeUserIdPrefersNumber | app/providers.tsx:39 | when a number is given, the name plays no part in the id |
| LocalApp.AddListing | app/providers.tsx:77-82 | the new item, with every given field plus the id and time, is at the head, the old list is the unchanged tail, and the id is returned |
| LocalApp.AddListingNewestFirst | app/providers.tsx:77-82 | after two additions the later is first, the earlier second, and the old list follows |
| LocalApp.Login | app/providers.tsx:85-88 | the user becomes name, number and the id `makeUserId` derives from them, which has no white space |
| LocalApp.Logout | app/providers.tsx:89 | no user remains |
| LocalApp.LoginStable | app/providers.tsx:85-88 | logging in with a user's id as the number, under any name, gives the same id |
| ToastFlag.SetNextToast | lib/toast-flag.ts:5-8 | without a window nothing is written; otherwise the slot holds the message and the kind, "success" when none is given |
| ToastFlag.ConsumeNextToast | lib/toast-flag.ts:10-23 | without a window or with an empty slot nothing is read or cleared; any other content is cleared; a toast is returned exactly for a stored non-empty message, its kind defaulting to "success" |
| ToastFlag.SetThenConsume | lib/toast-flag.ts:5-19 | a toast that was set is read back once with its kind and the slot is emptied |
| ToastFlag.ConsumeTwice | lib/toast-flag.ts:10-23 | whatever the slot held, a second read finds nothing |
| ToastFlag.BadEntriesCleared | lib/toast-flag.ts:16-22 | an entry without a message, with an empty one, or not JSON yields nothing and is cleared |

## Left out

- Firebase SDK calls are not modelled; the store is two maps and the calls are their effect on them. This covers `runTransaction`, `addDoc`, `updateDoc`, `deleteDoc`, `uploadBytes`, `getDownloadURL`, `onSnapshot`, `signInWithPopup` and `signOut`.
- Server timestamps, `Date.now()`, `Math.random()` ids and the id `addDoc` assigns are parameters.
- Concurrency is not modelled. The `Promise.all` upload fan-out is a sequential walk that fails if any upload fails. The `Promise.allSettled` blob deletion is the list of paths to release, and its outcome is not observed. The auth listener and the snapshot-subscription lifecycle are events applied in sequence.
- The quota read and the increment are separate steps. No atomicity is claimed, and the overshoot is proved instead.
- `fetchListings`, `fetchListingById` and `fetchMyListings` (lib/listings.ts:66-109) are not modelled. They are ordered, limited queries with no logic of their own.
- `localStorage` persistence and JSON parsing in app/providers.tsx are left out. In lib/toast-flag.ts, the slot is modelled by what parsing it yields.
- UI rendering, routing, toasts shown on screen, previews (`URL.createObjectURL`) and drag state are left out.
- The category-specific fields are left out: `categoryFields`, `getCategoryFields` and the `FieldWhen` rules. `createListingWithPlanLimits` drops them anyway. lib/categoryFields.types.ts is not part of this model.
- The `app/lib/` pass-throughs are not part of this model. In `NewPage.Submit` the upload is a parameter standing for `uploadPhotos(photos, user.id)`; its argument order is not checked against app/lib/storage.ts.
- Strings are sequences of Unicode scalar values. JavaScript counts a character outside the Basic Multilingual Plane as two UTF-16 code units, so lengths of such strings differ; no modelled property depends on them.
- Cards.CategoryLabel: the category table is a parameter, because the shipped category list has no ids or labels.
- Cards.PriceText: the amount is an unbounded natural number. `Number`'s loss of precision past 2^53, `Infinity` for very long digit strings and the `toLocaleString("pt-PT")` grouping are not modelled.
- Feed.Categories: the categories come in first-occurrence order. The `localeCompare` sort is not modelled, so only membership and distinctness are stated.
- Text.LowerChar: only ASCII and Latin-1 capitals are lower-cased. Full Unicode case mapping is not modelled.
- Uploader.Move: requires that `from` is a position whenever `to` is. With `from` past the end, the source would insert `undefined` into the file list, which the drag handlers never do.
- NewForm.MoveFile: requires the index to be in the list and the direction to be -1 or 1. The buttons only offer those.
- ToastFlag.ConsumeNextToast: a stored `type` outside the three kinds and a non-string `message` (read through `String`) are not modelled. The slot holds a well-typed object or none.
- NewForm.Submit: the identity of the user comes as a uid, with "" for none. The form's chained lookups of `user` and `userDoc` under different property names are not modelled.

## Findings

| source | as written | input that shows it | evidently intended | confidence | as-written member | corrected member |
|---|---|---|---|---|---|---|
| context/AuthContext.tsx:62-70 | the sign-in merge write sets `plan: "free"` and `createdAt` on every sign-in | a user whose stored profile has `plan: "pro"` signs in; afterwards the profile reads as free | the comment above the write says existing data is not erased: fill `plan` and `createdAt` only where missing | not executed; high, the write is unconditional | Auth.SignInMergeAsWritten (counterexample Auth.SignInDemotesPro) | Auth.SignInMerge (property Auth.SignInMergeKeepsProfile) |

=== FILE: auth.dfy ===
/** The profile side of the authentication context (context/AuthContext.tsx):
    the merge write on sign-in, the normalisation of a profile snapshot into
    a `UserDoc`, and the state cleared on sign-out. */
module Auth {
  import opened Wrappers
  import opened Model

  /** The normalised profile the application reads. */
  datatype UserDoc = UserDoc(plan: Plan, freeListingsUsed: int, whatsapp: Option<string>, createdAt: Option<Timestamp>)

  /** The snapshot of `users/{uid}`, or `None` when it does not exist. */
  function Lookup(db: Db, uid: string): Option<ProfileDoc> {
    if uid in db.users then Some(db.users[uid]) else None
  }

  /** Snapshot to `UserDoc`: a missing document reads as `{}`, the plan is pro
      only for the exact string "pro", a missing counter reads as 0. */
  function NormalizeProfile(snap: Option<ProfileDoc>): (u: UserDoc)
    ensures u.plan == Pro <==> snap.Some? && snap.value.plan == Some("pro")
    ensures snap.None? ==> u == UserDoc(Free, 0, None, None)
    ensures snap.Some? ==>
              && u.freeListingsUsed == snap.value.freeListingsUsed.GetOr(0)
              && u.whatsapp == snap.value.whatsapp
              && u.createdAt == snap.value.createdAt
  {
    match snap
    case None => UserDoc(Free, 0, None, None)
    case Some(d) =>
      UserDoc(if d.plan == Some("pro") then Pro else Free,
              d.freeListingsUsed.GetOr(0), d.whatsapp, d.createdAt)
  }

  /** How a plan is spelled in a stored profile. */
  function PlanName(p: Plan): string {
    if p == Pro then "pro" else "free"
  }

  /** A stored document holding exactly what a `UserDoc` says. */
  function StoredForm(u: UserDoc, email: Option<string>): ProfileDoc {
    ProfileDoc(email, Some(PlanName(u.plan)), Some(u.freeListingsUsed), u.whatsapp, u.createdAt)
  }

  /** Normalisation loses nothing a `UserDoc` holds. */
  lemma NormalizeStored(u: UserDoc, email: Option<string>)
    ensures NormalizeProfile(Some(StoredForm(u, email))) == u
  {
  }

  /** Any spelling other than exactly "pro" (a different case, a stray space,
      a missing field) normalises to the free plan. */
  lemma NormalizePlanIsExact(d: ProfileDoc)
    requires d.plan != Some("pro")
    ensures NormalizeProfile(Some(d)).plan == Free
  {
  }

  /** The merge write on sign-in as written: `setDoc(ref, {plan: "free",
      createdAt: serverTimestamp()}, {merge: true})`. It overwrites both
      fields on every sign-in and keeps the rest. */
  function SignInMergeAsWritten(db: Db, uid: string, now: Timestamp): (r: Db)
    ensures uid in r.users && r.listings == db.listings
    ensures r.users == db.users[uid := r.users[uid]]
    ensures r.users[uid].plan == Some("free") && r.users[uid].createdAt == Some(now)
    ensures uid in db.users ==>
              && r.users[uid].freeListingsUsed == db.users[uid].freeListingsUsed
              && r.users[uid].whatsapp == db.users[uid].whatsapp
              && r.users[uid].email == db.users[uid].email
    ensures uid !in db.users ==> r.users[uid] == ProfileDoc(None, Some("free"), None, None, Some(now))
  {
    var prior := if uid in db.users then db.users[uid] else ProfileDoc(None, None, None, None, None);
    db.(users := db.users[uid := prior.(plan := Some("free"), createdAt := Some(now))])
  }

  /** As written, signing in demotes a pro profile: its next snapshot
      normalises to the free plan, though counter and contact survive. */
  lemma SignInDemotesPro(db: Db, uid: string, now: Timestamp)
    requires uid in db.users && db.users[uid].plan == Some("pro")
    ensures NormalizeProfile(Lookup(db, uid)).plan == Pro
    ensures var after := NormalizeProfile(Lookup(SignInMergeAsWritten(db, uid, now), uid));
      && after.plan == Free
      && after.freeListingsUsed == NormalizeProfile(Lookup(db, uid)).freeListingsUsed
      && after.whatsapp == NormalizeProfile(Lookup(db, uid)).whatsapp
  {
  }

  /** The merge write as the comment above it describes it ("does not erase
      existing data"): `plan` and `createdAt` are filled in only where the
      stored document lacks them. */
  function SignInMerge(db: Db, uid: string, now: Timestamp): (r: Db)
    ensures uid in r.users && r.listings == db.listings
    ensures r.users == db.users[uid := r.users[uid]]
    ensures r.users[uid].plan.Some? && r.users[uid].createdAt.Some?
    ensures uid !in db.users ==> r.users[uid] == ProfileDoc(None, Some("free"), None, None, Some(now))
    ensures uid in db.users ==>
              && r.users[uid].plan == Some(db.users[uid].plan.GetOr("free"))
              && r.users[uid].createdAt == Some(db.users[uid].createdAt.GetOr(now))
              && r.users[uid].email == db.users[uid].email
              && r.users[uid].freeListingsUsed == db.users[uid].freeListingsUsed
              && r.users[uid].whatsapp == db.users[uid].whatsapp
  {
    var prior := if uid in db.users then db.users[uid] else ProfileDoc(None, None, None, None, None);
    db.(users := db.users[uid := prior.(plan := Some(prior.plan.GetOr("free")),
                                        createdAt := Some(prior.createdAt.GetOr(now)))])
  }

  /** The corrected merge never changes what the application reads for a
      profile that already has a plan and a creation time, and a second
      sign-in writes nothing new. */
  lemma SignInMergeKeepsProfile(db: Db, uid: string, now: Timestamp, later: Timestamp)
    ensures uid in db.users && db.users[uid].plan.Some? && db.users[uid].createdAt.Some? ==>
              SignInMerge(db, uid, now) == db
    ensures uid in db.users && db.users[uid].plan.Some? ==>
              NormalizeProfile(Lookup(SignInMerge(db, uid, now), uid)).(createdAt := None)
              == NormalizeProfile(Lookup(db, uid)).(createdAt := None)
    ensures var once := SignInMerge(db, uid, now);
      SignInMerge(once, uid, later) == once
  {
    if uid in db.users && db.users[uid].plan.Some? && db.users[uid].createdAt.Some? {
      assert SignInMerge(db, uid, now).users == db.users;
    }
    var once := SignInMerge(db, uid, now);
    assert SignInMerge(once, uid, later).users == once.users;
  }

  /** What the provider exposes: the signed-in user, the live profile and the
      loading flag. */
  datatype Session = Session(user: Option<string>, userData: Option<UserDoc>, loading: bool)

  /** The auth listener with no user: profile cleared and loading over. */
  function OnSignedOut(s: Session): (r: Session)
    ensures r.user.None? && r.userData.None? && !r.loading
  {
    Session(None, None, false)
  }

  /** The auth listener with a user, as written: the user is recorded,
      loading starts and the unconditional merge write runs. The previous
      profile stays until a snapshot. */
  function OnSignedIn(db: Db, s: Session, uid: string, now: Timestamp): (r: (Db, Session))
    ensures r.1 == s.(user := Some(uid), loading := true)
    ensures r.0 == SignInMergeAsWritten(db, uid, now)
  {
    (SignInMergeAsWritten(db, uid, now), s.(user := Some(uid), loading := true))
  }

  /** The same listener with the corrected merge write. */
  function OnSignedInCorrected(db: Db, s: Session, uid: string, now: Timestamp): (r: (Db, Session))
    ensures r.1 == s.(user := Some(uid), loading := true)
    ensures r.0 == SignInMerge(db, uid, now)
  {
    (SignInMerge(db, uid, now), s.(user := Some(uid), loading := true))
  }

  /** A profile snapshot for the signed-in user: normalised and exposed, and
      loading over. Without a user there is no subscription. */
  function OnProfileSnapshot(db: Db, s: Session): (r: Session)
    ensures s.user.None? ==> r == s
    ensures s.user.Some? ==>
              && r.user == s.user && !r.loading
              && r.userData == Some(NormalizeProfile(Lookup(db, s.user.value)))
  {
    match s.user
    case None => s
    case Some(uid) => s.(userData := Some(NormalizeProfile(Lookup(db, uid))), loading := false)
  }

  /** Sign-in as written followed by its first snapshot exposes the stored
      counter and contact, and always the free plan, whatever was stored. */
  lemma SignInThenSnapshot(db: Db, s: Session, uid: string, now: Timestamp)
    ensures var (db1, s1) := OnSignedIn(db, s, uid, now);
            var s2 := OnProfileSnapshot(db1, s1);
      && s2.user == Some(uid) && !s2.loading && s2.userData.Some?
      && s2.userData.value.plan == Free
      && s2.userData.value.createdAt == Some(now)
      && s2.userData.value.freeListingsUsed == NormalizeProfile(Lookup(db, uid)).freeListingsUsed
      && s2.userData.value.whatsapp == NormalizeProfile(Lookup(db, uid)).whatsapp
      && (uid !in db.users ==> s2.userData.value.freeListingsUsed == 0)
  {
  }

  /** End to end, as written: a pro user who signs in reads as free on the
      next snapshot; with the corrected listener the same user stays pro. */
  lemma SignInFlowDemotesPro(db: Db, s: Session, uid: string, now: Timestamp)
    requires uid in db.users && db.users[uid].plan == Some("pro")
    ensures var (db1, s1) := OnSignedIn(db, s, uid, now);
      OnProfileSnapshot(db1, s1).userData == Some(NormalizeProfile(Lookup(db, uid)).(plan := Free, createdAt := Some(now)))
    ensures var (db1, s1) := OnSignedInCorrected(db, s, uid, now);
      OnProfileSnapshot(db1, s1).userData.value.plan == Pro
  {
  }

  /** After sign-out no snapshot can bring a profile back. */
  lemma SignedOutStaysCleared(db: Db, s: Session)
    ensures OnProfileSnapshot(db, OnSignedOut(s)) == OnSignedOut(s)
    ensures OnProfileSnapshot(db, OnSignedOut(s)).userData.None?
  {
  }
}

=== FILE: cards.dfy ===
/** The listing card helpers (app/listings/ui.tsx): the price text, the
    category label, the cover image and the "STN" currency suffix. */
module Cards {
  import opened Wrappers
  import opened Text
  import opened Seqs
  import opened Decimal

  /** What `priceText` shows: nothing, the text as typed, or a whole number
      (its locale grouping is not modelled). */
  datatype PriceLabel = NoPrice | AsTyped(text: string) | Amount(value: nat)

  /** `Number(s.replace(/[^\d]/g, ""))`: the value of the digits of `s`, 0
      when there are none. */
  function DigitsValue(s: string): nat {
    ParseDecimal(Filter(s, IsDigit))
  }

  /** `priceText(p)`: blank shows nothing; digits worth 0 (or no digits) show
      the trimmed text; otherwise the number the digits form. */
  function PriceText(p: Option<string>): (r: PriceLabel)
    ensures r == NoPrice <==> Blank(p.GetOr(""))
    ensures r.AsTyped? ==> r.text == Trim(p.GetOr("")) && DigitsValue(r.text) == 0 && r.text != []
    ensures r.Amount? ==> r.value == DigitsValue(Trim(p.GetOr(""))) && r.value > 0
  {
    var s := Trim(p.GetOr(""));
    if s == [] then NoPrice
    else
      var n := DigitsValue(s);
      if n == 0 then AsTyped(s) else Amount(n)
  }

  /** A price typed as a plain number shows as that number, and rendering it
      gives back the typed digits. */
  lemma PriceTextOfNumber(s: string)
    requires Canonical(s) && s != "0"
    ensures PriceText(Some(s)) == Amount(ParseDecimal(s))
    ensures NatToString(PriceText(Some(s)).value) == s
  {
    TrimNoSpace(s);
    FilterKeepsAll(s, IsDigit);
    ParseCanonicalPositive(s);
    RenderParsed(s);
  }

  /** A price whose digits are all zero, such as "0" or "A negociar", shows as
      typed. */
  lemma PriceTextZeroAsTyped(s: string)
    requires !Blank(s)
    requires forall i :: 0 <= i < |Filter(Trim(s), IsDigit)| ==> Filter(Trim(s), IsDigit)[i] == '0'
    ensures PriceText(Some(s)) == AsTyped(Trim(s))
  {
    ParseZeroIff(Filter(Trim(s), IsDigit));
  }

  /** The "STN" suffix: shown when the trimmed price is non-empty. */
  predicate ShowsStn(price: Option<string>) {
    Trim(price.GetOr("")) != []
  }

  /** The suffix appears exactly when a price text is shown. */
  lemma StnIffPriceShown(price: Option<string>)
    ensures ShowsStn(price) <==> PriceText(price) != NoPrice
  {
  }

  /** One entry of the category table. */
  datatype Category = Category(id: string, text: string)

  /** `findIndex`: the position of the first entry with id `s`, or the
      table's length when there is none. */
  function FirstWithId(table: seq<Category>, s: string): (k: nat)
    ensures k <= |table|
    ensures k < |table| ==> table[k].id == s
    ensures forall j :: 0 <= j < k ==> table[j].id != s
  {
    if |table| == 0 then 0
    else if table[0].id == s then 0
    else 1 + FirstWithId(table[1..], s)
  }

  /** `CATEGORIES.find((c) => c.id === s)?.label`: the label of the first
      entry with that id. */
  function FindLabel(table: seq<Category>, s: string): (r: Option<string>)
    ensures r.None? <==> forall i :: 0 <= i < |table| ==> table[i].id != s
    ensures r.Some? ==> exists i :: 0 <= i < |table| && table[i].id == s && table[i].text == r.value
                                    && forall j :: 0 <= j < i ==> table[j].id != s
  {
    var k := FirstWithId(table, s);
    if k < |table| then Some(table[k].text) else None
  }

  /** `categoryLabel(id)`: blank gives "", otherwise the table's label for the
      trimmed id, or the trimmed id when the table has none. The table is a
      parameter, since the shipped category list carries no ids. */
  function CategoryLabel(table: seq<Category>, id: Option<string>): (r: string)
    ensures Blank(id.GetOr("")) ==> r == ""
    ensures !Blank(id.GetOr("")) && (forall i :: 0 <= i < |table| ==> table[i].id != Trim(id.GetOr(""))) ==>
              r == Trim(id.GetOr(""))
    ensures !Blank(id.GetOr("")) && FindLabel(table, Trim(id.GetOr(""))).Some? ==>
              r == FindLabel(table, Trim(id.GetOr(""))).value
  {
    var s := Trim(id.GetOr(""));
    if s == [] then "" else FindLabel(table, s).GetOr(s)
  }

  /** Surrounding white space does not change the label. */
  lemma CategoryLabelIgnoresPadding(table: seq<Category>, id: string)
    ensures CategoryLabel(table, Some(Trim(id))) == CategoryLabel(table, Some(id))
  {
    TrimIdempotent(id);
  }

  /** `item.imageUrl || item.images?.[0] || ""`: the explicit image if
      non-empty, else the first photo if non-empty, else nothing. */
  function Cover(imageUrl: Option<string>, images: Option<seq<string>>): (r: string)
    ensures imageUrl.Some? && imageUrl.value != "" ==> r == imageUrl.value
    ensures (imageUrl.None? || imageUrl.value == "") && images.Some? && |images.value| > 0 ==>
              r == images.value[0]
    ensures r == "" <==>
              (imageUrl.None? || imageUrl.value == "")
              && (images.None? || |images.value| == 0 || images.value[0] == "")
  {
    if imageUrl.Some? && imageUrl.value != "" then imageUrl.value
    else if images.Some? && |images.value| > 0 && images.value[0] != "" then images.value[0]
    else ""
  }
}

=== FILE: decimal.dfy ===
/** Natural numbers and their decimal digit strings: `${n}` for a
    non-negative integer, and `Number(digits)` for a string of ASCII digits. */
module Decimal {
  import opened Text

  function DigitValue(c: char): (d: nat)
    requires IsDigit(c)
    ensures d < 10
  {
    c as int - '0' as int
  }

  function DigitChar(d: nat): (c: char)
    requires d < 10
    ensures IsDigit(c) && DigitValue(c) == d
  {
    ('0' as int + d) as char
  }

  /** A digit string without superfluous leading zeros: what `${n}` prints. */
  predicate Canonical(s: string) {
    |s| > 0 && AllDigits(s) && (|s| > 1 ==> s[0] != '0')
  }

  /** The value of a string of decimal digits; the empty string is 0, as
      `Number("")` is. */
  function ParseDecimal(s: string): nat
    requires AllDigits(s)
  {
    if |s| == 0 then 0
    else ParseDecimal(s[..|s| - 1]) * 10 + DigitValue(s[|s| - 1])
  }

  /** `${n}`: the decimal rendering of a natural number. */
  function NatToString(n: nat): (r: string)
    ensures Canonical(r)
  {
    if n < 10 then [DigitChar(n)]
    else NatToString(n / 10) + [DigitChar(n % 10)]
  }

  /** Reading back a rendered number gives the number. */
  lemma {:induction false} ParseRendered(n: nat)
    ensures ParseDecimal(NatToString(n)) == n
  {
    if n >= 10 {
      var s := NatToString(n);
      assert s[..|s| - 1] == NatToString(n / 10);
      ParseRendered(n / 10);
    }
  }

  /** Rendering a parsed canonical digit string gives the string back. */
  lemma {:induction false} RenderParsed(s: string)
    requires Canonical(s)
    ensures NatToString(ParseDecimal(s)) == s
  {
    if |s| > 1 {
      var p := s[..|s| - 1];
      assert Canonical(p);
      RenderParsed(p);
      ParseCanonicalPositive(p);
      var n := ParseDecimal(s);
      assert n / 10 == ParseDecimal(p) && n % 10 == DigitValue(s[|s| - 1]);
      assert s == p + [s[|s| - 1]];
    }
  }

  /** A canonical digit string other than "0" has a positive value. */
  lemma {:induction false} ParseCanonicalPositive(s: string)
    requires Canonical(s) && s != "0"
    ensures ParseDecimal(s) > 0
  {
    if |s| > 1 {
      var p := s[..|s| - 1];
      assert Canonical(p) && p != "0" by {
        assert p[0] == s[0];
      }
      ParseCanonicalPositive(p);
    }
  }

  /** Distinct numbers render as distinct strings. */
  lemma RenderInjective(m: nat, n: nat)
    requires m != n
    ensures NatToString(m) != NatToString(n)
  {
    ParseRendered(m);
    ParseRendered(n);
  }

  /** A digit string is worth 0 exactly when every digit is '0'. */
  lemma {:induction false} ParseZeroIff(s: string)
    requires AllDigits(s)
    ensures ParseDecimal(s) == 0 <==> forall i :: 0 <= i < |s| ==> s[i] == '0'
  {
    if |s| > 0 {
      var p := s[..|s| - 1];
      ParseZeroIff(p);
      assert forall i :: 0 <= i < |p| ==> p[i] == s[i];
    }
  }
}

=== FILE: feed.dfy ===
/** The listings feed (app/listings/page.tsx): the in-memory search and
    category filter, the category list, the "filters active" flag and the
    WhatsApp link of a card. */
module Feed {
  import opened Wrappers
  import opened Text
  import opened Seqs
  import NewForm

  /** The fields of a fetched listing the feed reads. */
  datatype FeedListing = FeedListing(
    id: string,
    title: string,
    description: string,
    location: string,
    category: string,
    whatsapp: Option<string>)

  /** `query.trim().toLowerCase()`. */
  function QueryKey(query: string): string {
    Lower(Trim(query))
  }

  /** The text a query is searched in: `${title} ${description} ${location}
      ${category}`, lower-cased. */
  function Haystack(l: FeedListing): string {
    Lower(l.title + SearchTail(l))
  }

  function SearchTail(l: FeedListing): string {
    " " + l.description + " " + l.location + " " + l.category
  }

  /** The filter predicate: an empty category or key lets everything
      through; otherwise the category must be equal, character for
      character, and the key must occur in the lower-cased text. */
  predicate Matches(l: FeedListing, query: string, category: string) {
    (category == "" || l.category == category)
    && (QueryKey(query) == "" || Contains(Haystack(l), QueryKey(query)))
  }

  /** `filtered`. */
  function Filtered(listings: seq<FeedListing>, query: string, category: string): (r: seq<FeedListing>)
    ensures |r| <= |listings|
    ensures forall i :: 0 <= i < |r| ==> r[i] in listings && Matches(r[i], query, category)
    ensures forall i :: 0 <= i < |listings| && Matches(listings[i], query, category) ==> listings[i] in r
  {
    Filter(listings, l => Matches(l, query, category))
  }

  /** The feed keeps the fetched order: the result is a subsequence. */
  lemma FilteredIsSubsequence(listings: seq<FeedListing>, query: string, category: string)
    ensures IsSubsequence(Filtered(listings, query, category), listings)
  {
    FilterIsSubsequence(listings, l => Matches(l, query, category));
  }

  /** With no category and a blank query the feed shows everything. */
  lemma NoFiltersShowsAll(listings: seq<FeedListing>, query: string)
    requires Blank(query)
    ensures Filtered(listings, query, "") == listings
  {
    FilterKeepsAll(listings, l => Matches(l, query, ""));
  }

  /** Filtering the filtered feed again with the same inputs changes nothing. */
  lemma FilteredIdempotent(listings: seq<FeedListing>, query: string, category: string)
    ensures Filtered(Filtered(listings, query, category), query, category) == Filtered(listings, query, category)
  {
    FilterIdempotent(listings, l => Matches(l, query, category));
  }

  /** The two conditions compose: filtering by category and then by query is
      filtering by both. */
  lemma FilterComposes(listings: seq<FeedListing>, query: string, category: string)
    ensures Filtered(Filtered(listings, "", category), query, "") == Filtered(listings, query, category)
  {
    assert QueryKey("") == "";
    FilterFilter(listings, l => Matches(l, "", category), l => Matches(l, query, ""),
                 l => Matches(l, query, category));
  }

  /** The category filter is exact: a differently cased or accented category
      is not shown. */
  lemma CategoryIsExact(listings: seq<FeedListing>, query: string, category: string)
    requires category != ""
    ensures forall i :: 0 <= i < |Filtered(listings, query, category)| ==>
              Filtered(listings, query, category)[i].category == category
  {
  }

  /** The search is case-insensitive in the listing's text: a listing whose
      text contains the key matches whatever the case of its own letters. */
  lemma QueryFindsTitle(l: FeedListing, query: string)
    requires QueryKey(query) != "" && Contains(Lower(l.title), QueryKey(query))
    ensures Matches(l, query, "")
  {
    LowerConcat(l.title, SearchTail(l));
    ContainsExtended(Lower(l.title), Lower(SearchTail(l)), QueryKey(query));
  }

  /** The category of every listing, in order. */
  function CategoryOf(listings: seq<FeedListing>): (r: seq<string>)
    ensures |r| == |listings|
    ensures forall i :: 0 <= i < |r| ==> r[i] == listings[i].category
  {
    seq(|listings|, i requires 0 <= i < |listings| => listings[i].category)
  }

  /** `categories`: each category of the fetched listings exactly once (the
      `localeCompare` ordering is not modelled). */
  function Categories(listings: seq<FeedListing>): (r: seq<string>)
    ensures NoDuplicates(r)
    ensures forall i :: 0 <= i < |listings| ==> listings[i].category in r
    ensures forall i :: 0 <= i < |r| ==> exists j :: 0 <= j < |listings| && listings[j].category == r[i]
  {
    var cats := CategoryOf(listings);
    var r := Distinct(cats);
    assert forall i :: 0 <= i < |listings| ==> cats[i] == listings[i].category;
    r
  }

  /** `hasFilters`. */
  predicate HasFilters(query: string, category: string) {
    Trim(query) != "" || category != ""
  }

  /** When the flag is off the feed is unfiltered. */
  lemma NoFlagNoFilter(listings: seq<FeedListing>, query: string, category: string)
    requires !HasFilters(query, category)
    ensures Filtered(listings, query, category) == listings
  {
    NoFiltersShowsAll(listings, query);
  }

  /** The WhatsApp link: shown only for a non-blank number, pointing at
      `https://wa.me/` followed by the number's digits. */
  function WaLink(whatsapp: Option<string>): (r: Option<string>)
    ensures r.Some? <==> whatsapp.Some? && !Blank(whatsapp.value)
    ensures r.Some? ==>
              && StartsWith(r.value, "https://wa.me/")
              && r.value[|"https://wa.me/"|..] == Filter(whatsapp.value, IsDigit)
              && AllDigits(r.value[|"https://wa.me/"|..])
  {
    match whatsapp
    case None => None
    case Some(w) =>
      if Trim(w) == "" then None
      else
        var r := "https://wa.me/" + Filter(w, IsDigit);
        assert r[|"https://wa.me/"|..] == Filter(w, IsDigit);
        Some(r)
  }

  /** A number stored through the new-listing form links to the same chat as
      the number as typed: cleaning keeps every digit. */
  lemma WaLinkOfCleanedNumber(typed: string)
    requires !Blank(NewForm.DigitsOnly(typed))
    ensures WaLink(Some(NewForm.DigitsOnly(typed))).Some?
    ensures WaLink(Some(typed)).Some? ==> WaLink(Some(NewForm.DigitsOnly(typed))) == WaLink(Some(typed))
  {
    FilterFilter(typed, NewForm.IsPhoneChar, IsDigit, IsDigit);
  }
}

=== FILE: listings.dfy ===
/** Listing lifecycle over the store (lib/listings.ts): plan-limited creation,
    owner-checked partial update and owner-checked deletion. Each operation is
    a transition from one `Db` to the next. */
module Listings {
  import opened Wrappers
  import opened Text
  import opened Model
  import Storage

  const MaxListingsFree: int := 2
  const MaxFreePhotos: int := 3
  const MaxProPhotos: int := 7

  /** The most photos a listing may carry on a plan. */
  function PhotoCap(plan: Plan): int {
    if plan == Pro then MaxProPhotos else MaxFreePhotos
  }

  // ---------------------------------------------------------------------------
  // cleanUndefined
  // ---------------------------------------------------------------------------

  /** `cleanUndefined`: drops the keys whose value is `undefined`. */
  function CleanUndefined<K(!new), V>(obj: map<K, Option<V>>): (out: map<K, V>)
    ensures forall k :: k in out <==> k in obj && obj[k].Some?
    ensures forall k :: k in out ==> obj[k] == Some(out[k])
  {
    map k | k in obj && obj[k].Some? :: obj[k].value
  }

  // ---------------------------------------------------------------------------
  // createListingWithPlanLimits
  // ---------------------------------------------------------------------------

  datatype CreateParams = CreateParams(
    uid: string,
    plan: Plan,
    title: string,
    price: string,
    category: string,
    location: string,
    description: string,
    kind: Kind,
    condition: Option<Condition>,
    serviceType: Option<ServiceType>,
    files: seq<File>,
    whatsapp: Option<string>)

  datatype CreateError =
    | Unauthenticated     // "Utilizador não autenticado."
    | MissingTitle        // "Título obrigatório."
    | MissingCategory     // "Seleciona uma categoria."
    | MissingLocation     // "Localização obrigatória."
    | MissingDescription  // "Descrição obrigatória."
    | MissingPhotos       // "Adiciona pelo menos 1 foto."
    | FreeQuotaReached    // "Limite atingido: máximo 2 anúncios no plano Free."
    | TooManyFreePhotos   // "Plano Free permite máximo 3 fotos."
    | TooManyProPhotos    // "Plano Pro permite máximo 7 fotos."
    | UploadFailed        // a photo upload rejected
    | ProfileMissing      // the counter update found no users document

  /** The input checks, in source order; the first that fails is reported. */
  function ValidateCreate(p: CreateParams): (r: Option<CreateError>)
    ensures r.None? <==>
      p.uid != "" && !Blank(p.title) && !Blank(p.category) && !Blank(p.location)
      && !Blank(p.description) && |p.files| > 0
    ensures r == Some(Unauthenticated) <==> p.uid == ""
    ensures r == Some(MissingTitle) <==> p.uid != "" && Blank(p.title)
    ensures r == Some(MissingCategory) <==> p.uid != "" && !Blank(p.title) && Blank(p.category)
    ensures r == Some(MissingLocation) <==>
      p.uid != "" && !Blank(p.title) && !Blank(p.category) && Blank(p.location)
    ensures r == Some(MissingDescription) <==>
      p.uid != "" && !Blank(p.title) && !Blank(p.category) && !Blank(p.location) && Blank(p.description)
    ensures r == Some(MissingPhotos) <==>
      p.uid != "" && !Blank(p.title) && !Blank(p.category) && !Blank(p.location) && !Blank(p.description)
      && |p.files| == 0
    ensures r.Some? ==> r.value in {Unauthenticated, MissingTitle, MissingCategory, MissingLocation,
                                    MissingDescription, MissingPhotos}
  {
    if p.uid == "" then Some(Unauthenticated)
    else if Blank(p.title) then Some(MissingTitle)
    else if Blank(p.category) then Some(MissingCategory)
    else if Blank(p.location) then Some(MissingLocation)
    else if Blank(p.description) then Some(MissingDescription)
    else if |p.files| == 0 then Some(MissingPhotos)
    else None
  }

  /** `Number(userSnap.data()?.freeListingsUsed ?? 0)`: a missing document or
      field reads as 0. */
  function UsedCount(users: map<string, ProfileDoc>, uid: string): int {
    if uid in users then users[uid].freeListingsUsed.GetOr(0) else 0
  }

  /** The quota read and the photo cap: on the free plan, inside the first
      transaction, the counter first and then the photo count; on the pro
      plan, the photo count alone. Over-cap photo lists are rejected, never
      truncated. */
  function PlanGate(users: map<string, ProfileDoc>, p: CreateParams): (r: Option<CreateError>)
    ensures r.None? <==>
      |p.files| <= PhotoCap(p.plan) && (p.plan == Free ==> UsedCount(users, p.uid) < MaxListingsFree)
    ensures p.plan == Free && UsedCount(users, p.uid) >= MaxListingsFree ==> r == Some(FreeQuotaReached)
    ensures r == Some(TooManyFreePhotos) <==>
      p.plan == Free && UsedCount(users, p.uid) < MaxListingsFree && |p.files| > MaxFreePhotos
    ensures r == Some(TooManyProPhotos) <==> p.plan == Pro && |p.files| > MaxProPhotos
  {
    if p.plan == Free then
      if UsedCount(users, p.uid) >= MaxListingsFree then Some(FreeQuotaReached)
      else if |p.files| > MaxFreePhotos then Some(TooManyFreePhotos)
      else None
    else if |p.files| > MaxProPhotos then Some(TooManyProPhotos)
    else None
  }

  /** `whatsapp?.trim() || undefined`. */
  function OptionalTrimmed(w: Option<string>): (r: Option<string>)
    ensures r.Some? <==> w.Some? && !Blank(w.value)
    ensures r.Some? ==> r.value == Trim(w.value)
  {
    if w.Some? && Trim(w.value) != "" then Some(Trim(w.value)) else None
  }

  /** The base document, written before any photo is uploaded. */
  function BaseDoc(p: CreateParams, now: Timestamp): ListingDoc {
    ListingDoc(
      ownerId := Some(p.uid),
      title := Trim(p.title),
      price := Trim(p.price),
      category := Trim(p.category),
      location := Trim(p.location),
      description := Trim(p.description),
      kind := p.kind,
      condition := if p.kind == Product then Some(p.condition.GetOr(Novo)) else None,
      serviceType := if p.kind == Service then Some(p.serviceType.GetOr(Ambos)) else None,
      whatsapp := OptionalTrimmed(p.whatsapp),
      images := [],
      imagePaths := Some([]),
      status := Some(Active),
      planAtCreation := Some(p.plan),
      createdAt := Some(now))
  }

  /** The store after a call and what the call returned or threw. */
  datatype CreateOutcome = CreateOutcome(db: Db, result: Result<string, CreateError>)

  /** The second transaction: `freeListingsUsed: increment(1)` through
      `tx.update`, which fails when the users document does not exist. */
  function IncrementFreeCounter(db: Db, uid: string): (r: Option<Db>)
    ensures r.Some? <==> uid in db.users
    ensures r.Some? ==> r.value.listings == db.listings
    ensures r.Some? ==> uid in r.value.users && UsedCount(r.value.users, uid) == UsedCount(db.users, uid) + 1
    ensures r.Some? ==> r.value.users == db.users[uid := r.value.users[uid]]
    ensures r.Some? ==> r.value.users[uid].(freeListingsUsed := db.users[uid].freeListingsUsed) == db.users[uid]
  {
    if uid in db.users then
      var u := db.users[uid];
      Some(db.(users := db.users[uid := u.(freeListingsUsed := Some(u.freeListingsUsed.GetOr(0) + 1))]))
    else None
  }

  /** The base document patched with the uploaded photos. */
  function WithPhotos(base: ListingDoc, up: Storage.Uploaded): ListingDoc {
    base.(images := up.urls, imagePaths := Some(up.paths))
  }

  /** The writes after the checks, in source order: base document, upload,
      image patch, then (free plan only) the counter increment; `base` is the
      document first written. These run as
      separate steps; nothing ties them atomically to `PlanGate`. */
  function CommitCreate(db: Db, p: CreateParams, newId: string, base: ListingDoc,
                        upload: (string, File) -> Option<string>): (r: CreateOutcome)
    requires newId !in db.listings
    ensures newId in r.db.listings
    ensures r.db.listings == db.listings[newId := r.db.listings[newId]]
    ensures r.result.Ok? <==> UploadsSucceed(p, newId, upload) && (p.plan == Free ==> p.uid in db.users)
    ensures r.result.Ok? ==> r.result.value == newId
    ensures r.result.Err? ==> r.result.error in {UploadFailed, ProfileMissing}
    ensures r.result != Err(ProfileMissing) ==> p.plan == Pro ==> r.db.users == db.users
    ensures r.result == Err(UploadFailed) <==> !UploadsSucceed(p, newId, upload)
    ensures r.result == Err(UploadFailed) ==> r.db.users == db.users && r.db.listings[newId] == base
    ensures p.plan == Free && r.result.Ok? ==>
              && UsedCount(r.db.users, p.uid) == UsedCount(db.users, p.uid) + 1
              && p.uid in r.db.users && r.db.users == db.users[p.uid := r.db.users[p.uid]]
    ensures r.result == Err(ProfileMissing) ==> r.db.users == db.users
    ensures r.result.Ok? ==> r.db.listings[newId] == WithPhotos(base, Storage.UploadListingImages(p.uid, newId, p.files, upload).value)
  {
    var db1 := PutListing(db, newId, base);
    match Storage.UploadListingImages(p.uid, newId, p.files, upload)
    case None => CreateOutcome(db1, Err(UploadFailed))
    case Some(up) =>
      var done := WithPhotos(base, up);
      var db2 := PutListing(db1, newId, done);
      assert db2.listings == db.listings[newId := done];
      var r := FinishCreate(db2, p, newId);
      assert r.db.listings[newId] == done;
      r
  }

  /** The last step: on the free plan the counter increment, whose failure
      leaves the finished listing in place. */
  function FinishCreate(db: Db, p: CreateParams, newId: string): (r: CreateOutcome)
    ensures r.db.listings == db.listings
    ensures r.result.Ok? <==> (p.plan == Free ==> p.uid in db.users)
    ensures r.result.Ok? ==> r.result.value == newId
    ensures r.result.Err? ==> r.result.error == ProfileMissing && r.db == db
    ensures p.plan == Pro ==> r.db == db
    ensures p.plan == Free && r.result.Ok? ==>
              && UsedCount(r.db.users, p.uid) == UsedCount(db.users, p.uid) + 1
              && p.uid in r.db.users && r.db.users == db.users[p.uid := r.db.users[p.uid]]
  {
    if p.plan == Free then
      match IncrementFreeCounter(db, p.uid)
      case None => CreateOutcome(db, Err(ProfileMissing))
      case Some(db3) => CreateOutcome(db3, Ok(newId))
    else CreateOutcome(db, Ok(newId))
  }

  /** Writes one listing document. */
  function PutListing(db: Db, id: string, doc: ListingDoc): (r: Db)
    ensures r.users == db.users && r.listings == db.listings[id := doc]
  {
    db.(listings := db.listings[id := doc])
  }

  /** Every upload for the listing's files succeeds. */
  ghost predicate UploadsSucceed(p: CreateParams, newId: string, upload: (string, File) -> Option<string>) {
    forall i :: 0 <= i < |p.files| ==> upload(Storage.PathFor(p.uid, newId, i, p.files[i].name), p.files[i]).Some?
  }

  /** `createListingWithPlanLimits`. `newId` is the id `addDoc` assigns, `now`
      the server timestamp, `upload` the storage service. A failed check
      writes nothing; the checks come in source order. */
  function CreateListingWithPlanLimits(db: Db, p: CreateParams, newId: string, now: Timestamp,
                                       upload: (string, File) -> Option<string>): (r: CreateOutcome)
    requires newId !in db.listings
    ensures ValidateCreate(p).Some? ==> r == CreateOutcome(db, Err(ValidateCreate(p).value))
    ensures ValidateCreate(p).None? && PlanGate(db.users, p).Some? ==>
              r == CreateOutcome(db, Err(PlanGate(db.users, p).value))
    ensures r.result.Ok? <==>
              ValidateCreate(p).None? && PlanGate(db.users, p).None? && UploadsSucceed(p, newId, upload)
              && (p.plan == Free ==> p.uid in db.users)
    ensures r.db != db ==> newId in r.db.listings && r.db.listings == db.listings[newId := r.db.listings[newId]]
    ensures ValidateCreate(p).None? && PlanGate(db.users, p).None? && !UploadsSucceed(p, newId, upload) ==>
              && r.result == Err(UploadFailed)
              && r.db.users == db.users
              && r.db.listings == db.listings[newId := BaseDoc(p, now)]
  {
    match ValidateCreate(p)
    case Some(e) => CreateOutcome(db, Err(e))
    case None =>
      match PlanGate(db.users, p)
      case Some(e) => CreateOutcome(db, Err(e))
      case None => CommitCreate(db, p, newId, BaseDoc(p, now), upload)
  }

  // ---------------------------------------------------------------------------
  // Properties of creation
  // ---------------------------------------------------------------------------

  /** A successful creation stores the trimmed fields, the kind-specific
      defaults and one image URL and one storage path per photo, in order. */
  lemma CreateStoresListing(db: Db, p: CreateParams, newId: string, now: Timestamp,
                            upload: (string, File) -> Option<string>)
    requires newId !in db.listings
    requires CreateListingWithPlanLimits(db, p, newId, now, upload).result.Ok?
    ensures var d := CreateListingWithPlanLimits(db, p, newId, now, upload).db.listings[newId];
      && d.ownerId == Some(p.uid)
      && d.title == Trim(p.title) && d.title != []
      && d.price == Trim(p.price)
      && d.category == Trim(p.category) && d.category != []
      && d.location == Trim(p.location) && d.location != []
      && d.description == Trim(p.description) && d.description != []
      && d.kind == p.kind
      && (d.condition.Some? <==> p.kind == Product)
      && (d.serviceType.Some? <==> p.kind == Service)
      && (p.kind == Product && p.condition.None? ==> d.condition == Some(Novo))
      && (p.kind == Service && p.serviceType.None? ==> d.serviceType == Some(Ambos))
      && d.whatsapp == OptionalTrimmed(p.whatsapp)
      && |d.images| == |p.files| && 0 < |p.files| <= PhotoCap(p.plan)
      && d.imagePaths == Some(Storage.Paths(p.uid, newId, p.files))
      && d.status == Some(Active)
      && d.planAtCreation == Some(p.plan)
      && d.createdAt == Some(now)
  {
    var up := Storage.UploadListingImages(p.uid, newId, p.files, upload).value;
    assert up.paths == Storage.Paths(p.uid, newId, p.files);
  }

  /** A successful free-plan creation consumes one unit of quota and touches
      no other profile; a pro-plan creation leaves every profile as it was. */
  lemma CreateCountsFreeListings(db: Db, p: CreateParams, newId: string, now: Timestamp,
                                 upload: (string, File) -> Option<string>)
    requires newId !in db.listings
    requires CreateListingWithPlanLimits(db, p, newId, now, upload).result.Ok?
    ensures var after := CreateListingWithPlanLimits(db, p, newId, now, upload).db;
      && after.listings.Keys == db.listings.Keys + {newId}
      && (p.plan == Free ==>
            && UsedCount(after.users, p.uid) == UsedCount(db.users, p.uid) + 1
            && UsedCount(after.users, p.uid) <= MaxListingsFree
            && forall u :: u in db.users && u != p.uid ==> u in after.users && after.users[u] == db.users[u])
      && (p.plan == Pro ==> after.users == db.users)
  {
    var r := CreateListingWithPlanLimits(db, p, newId, now, upload);
    assert r == CommitCreate(db, p, newId, BaseDoc(p, now), upload);
    assert PlanGate(db.users, p).None?;
    CommitTouchesOneProfile(db, p, newId, BaseDoc(p, now), upload);
  }

  lemma CommitTouchesOneProfile(db: Db, p: CreateParams, newId: string, base: ListingDoc,
                                upload: (string, File) -> Option<string>)
    requires newId !in db.listings
    requires CommitCreate(db, p, newId, base, upload).result.Ok?
    ensures var after := CommitCreate(db, p, newId, base, upload).db;
      && after.listings.Keys == db.listings.Keys + {newId}
      && (p.plan == Free ==>
            forall u :: u in db.users && u != p.uid ==> u in after.users && after.users[u] == db.users[u])
  {
    var after := CommitCreate(db, p, newId, base, upload).db;
    if p.plan == Free {
      var n := after.users[p.uid];
      assert after.users == db.users[p.uid := n];
      forall u | u in db.users && u != p.uid
        ensures u in after.users && after.users[u] == db.users[u]
      {
      }
    }
  }

  /** The quota read and the counter increment are separate transactions, so
      two free-plan creations whose checks both read a count of 1 both
      succeed and leave the count at 3, past the limit of 2. */
  lemma InterleavedFreeCreatesOvershootQuota(db: Db, p1: CreateParams, p2: CreateParams,
                                             id1: string, id2: string, now: Timestamp,
                                             upload: (string, File) -> Option<string>)
    requires p1.plan == Free && p2.plan == Free && p1.uid == p2.uid
    requires p1.uid in db.users && UsedCount(db.users, p1.uid) == 1
    requires ValidateCreate(p1).None? && ValidateCreate(p2).None?
    requires |p1.files| <= MaxFreePhotos && |p2.files| <= MaxFreePhotos
    requires UploadsSucceed(p1, id1, upload) && UploadsSucceed(p2, id2, upload)
    requires id1 != id2 && id1 !in db.listings && id2 !in db.listings
    ensures PlanGate(db.users, p1).None? && PlanGate(db.users, p2).None?
    ensures var r1 := CommitCreate(db, p1, id1, BaseDoc(p1, now), upload);
            var r2 := CommitCreate(r1.db, p2, id2, BaseDoc(p2, now), upload);
      && r1.result == Ok(id1) && r2.result == Ok(id2)
      && UsedCount(r2.db.users, p1.uid) == MaxListingsFree + 1
  {
    var r1 := CommitCreate(db, p1, id1, BaseDoc(p1, now), upload);
    assert r1.result == Ok(id1);
    assert p1.uid in r1.db.users;
    assert id2 !in r1.db.listings;
  }

  /** When the counter update finds no profile the call fails, yet the
      listing with its photos stays and no quota is consumed. */
  lemma ProfileMissingKeepsListing(db: Db, p: CreateParams, newId: string, now: Timestamp,
                                   upload: (string, File) -> Option<string>)
    requires newId !in db.listings
    requires ValidateCreate(p).None? && PlanGate(db.users, p).None?
    requires p.plan == Free && p.uid !in db.users && UploadsSucceed(p, newId, upload)
    ensures var r := CreateListingWithPlanLimits(db, p, newId, now, upload);
      && r.result == Err(ProfileMissing)
      && r.db.users == db.users
      && newId in r.db.listings && |r.db.listings[newId].images| == |p.files|
      && UsedCount(r.db.users, p.uid) == 0
  {
  }

  /** A failed upload rejects the call after the base document is written:
      the listing stays behind without photos, and no profile changes. */
  lemma CreateUploadFailedLeavesBase(db: Db, p: CreateParams, newId: string, now: Timestamp,
                                     upload: (string, File) -> Option<string>)
    requires newId !in db.listings
    requires ValidateCreate(p).None? && PlanGate(db.users, p).None?
    requires !UploadsSucceed(p, newId, upload)
    ensures var r := CreateListingWithPlanLimits(db, p, newId, now, upload);
      && r.result == Err(UploadFailed)
      && r.db.users == db.users
      && r.db.listings.Keys == db.listings.Keys + {newId}
      && var d := r.db.listings[newId];
      && d.images == [] && d.imagePaths == Some([])
      && d.ownerId == Some(p.uid) && d.status == Some(Active)
      && d.title == Trim(p.title) && d.price == Trim(p.price) && d.category == Trim(p.category)
      && d.location == Trim(p.location) && d.description == Trim(p.description)
      && d.whatsapp == OptionalTrimmed(p.whatsapp)
      && d.planAtCreation == Some(p.plan) && d.createdAt == Some(now)
  {
  }

  // ---------------------------------------------------------------------------
  // updateListing
  // ---------------------------------------------------------------------------

  /** The editable fields: `Pick<Listing, "title" | "price" | "category" |
      "location" | "description" | "status">`. */
  datatype EditField = TitleField | PriceField | CategoryField | LocationField | DescriptionField | StatusField

  datatype EditValue = TextValue(text: string) | StatusValue(status: Status)

  /** The partial patch; `None` is an absent key. */
  datatype Patch = Patch(
    title: Option<string>,
    price: Option<string>,
    category: Option<string>,
    location: Option<string>,
    description: Option<string>,
    status: Option<Status>)

  datatype UpdateError =
    | NotFound   // "Anúncio não encontrado."
    | Forbidden  // "Sem permissão para editar/apagar este anúncio."

  /** `patch.x?.trim()`. */
  function TrimmedText(o: Option<string>): (r: Option<EditValue>)
    ensures r.Some? <==> o.Some?
    ensures r.Some? ==> r.value == TextValue(Trim(o.value))
  {
    match o
    case None => None
    case Some(t) => Some(TextValue(Trim(t)))
  }

  const AllEditFields: set<EditField> :=
    {TitleField, PriceField, CategoryField, LocationField, DescriptionField, StatusField}

  lemma EveryEditField()
    ensures forall f: EditField :: f in AllEditFields
  {
    forall f: EditField ensures f in AllEditFields {
      match f
      case TitleField =>
      case PriceField =>
      case CategoryField =>
      case LocationField =>
      case DescriptionField =>
      case StatusField =>
    }
  }

  /** The value the patch object gives field `f` before cleaning: the trimmed
      text, the status, or `undefined`. */
  function PatchValue(patch: Patch, f: EditField): Option<EditValue> {
    match f
    case TitleField => TrimmedText(patch.title)
    case PriceField => TrimmedText(patch.price)
    case CategoryField => TrimmedText(patch.category)
    case LocationField => TrimmedText(patch.location)
    case DescriptionField => TrimmedText(patch.description)
    case StatusField => if patch.status.Some? then Some(StatusValue(patch.status.value)) else None
  }

  /** The object handed to `updateDoc`: every patched field, trimmed if it
      is text, and no key for a field the patch leaves out. */
  function Cleaned(patch: Patch): (out: map<EditField, EditValue>)
    ensures forall f :: f in out <==> PatchValue(patch, f).Some?
    ensures forall f :: f in out ==> out[f] == PatchValue(patch, f).value
  {
    var obj := map f | f in AllEditFields :: PatchValue(patch, f);
    EveryEditField();
    CleanUndefined(obj)
  }

  /** The text `updateDoc` writes to field `f`, or the current text. */
  function TextOr(edits: map<EditField, EditValue>, f: EditField, current: string): string {
    if f in edits && edits[f].TextValue? then edits[f].text else current
  }

  /** `updateDoc(ref, cleaned)`: a merge of the present keys into the document. */
  function ApplyEdits(d: ListingDoc, edits: map<EditField, EditValue>): ListingDoc {
    d.(title := TextOr(edits, TitleField, d.title),
       price := TextOr(edits, PriceField, d.price),
       category := TextOr(edits, CategoryField, d.category),
       location := TextOr(edits, LocationField, d.location),
       description := TextOr(edits, DescriptionField, d.description),
       status := if StatusField in edits && edits[StatusField].StatusValue? then Some(edits[StatusField].status)
                 else d.status)
  }

  /** The text field after a patch: the trimmed new value if given. */
  function Patched(o: Option<string>, current: string): string {
    if o.Some? then Trim(o.value) else current
  }

  /** What the merge does to each field. */
  lemma ApplyCleaned(d: ListingDoc, patch: Patch)
    ensures var n := ApplyEdits(d, Cleaned(patch));
      && n.title == Patched(patch.title, d.title)
      && n.price == Patched(patch.price, d.price)
      && n.category == Patched(patch.category, d.category)
      && n.location == Patched(patch.location, d.location)
      && n.description == Patched(patch.description, d.description)
      && n.status == (if patch.status.Some? then patch.status else d.status)
      && n.(title := d.title, price := d.price, category := d.category, location := d.location,
            description := d.description, status := d.status) == d
  {
    var c := Cleaned(patch);
    assert TitleField in c <==> patch.title.Some?;
    assert PriceField in c <==> patch.price.Some?;
    assert CategoryField in c <==> patch.category.Some?;
    assert LocationField in c <==> patch.location.Some?;
    assert DescriptionField in c <==> patch.description.Some?;
    assert StatusField in c <==> patch.status.Some?;
  }

  /** `updateListing`: the listing must exist and belong to `uid` (a missing
      `ownerId` belongs to nobody); then the patched fields are overwritten
      with their trimmed values and nothing else changes. */
  function UpdateListing(db: Db, listingId: string, uid: string, patch: Patch): (r: Result<Db, UpdateError>)
    ensures r == Err(NotFound) <==> listingId !in db.listings
    ensures r == Err(Forbidden) <==> listingId in db.listings && db.listings[listingId].ownerId != Some(uid)
    ensures r.Ok? ==>
      var old_ := db.listings[listingId];
      && r.value.users == db.users
      && listingId in r.value.listings
      && r.value.listings == db.listings[listingId := r.value.listings[listingId]]
      && var d := r.value.listings[listingId];
      && d.title == Patched(patch.title, old_.title)
      && d.price == Patched(patch.price, old_.price)
      && d.category == Patched(patch.category, old_.category)
      && d.location == Patched(patch.location, old_.location)
      && d.description == Patched(patch.description, old_.description)
      && d.status == (if patch.status.Some? then patch.status else old_.status)
      && d.(title := old_.title, price := old_.price, category := old_.category, location := old_.location,
            description := old_.description, status := old_.status) == old_
  {
    if listingId !in db.listings then Err(NotFound)
    else
      var d := db.listings[listingId];
      if d.ownerId != Some(uid) then Err(Forbidden)
      else
        ApplyCleaned(d, patch);
        Ok(db.(listings := db.listings[listingId := ApplyEdits(d, Cleaned(patch))]))
  }

  /** Applying the same patch again changes nothing more. */
  lemma UpdateIdempotent(db: Db, listingId: string, uid: string, patch: Patch)
    requires UpdateListing(db, listingId, uid, patch).Ok?
    ensures var once := UpdateListing(db, listingId, uid, patch).value;
      UpdateListing(once, listingId, uid, patch) == Ok(once)
  {
    var once := UpdateListing(db, listingId, uid, patch).value;
    var twice := UpdateListing(once, listingId, uid, patch).value;
    var d := once.listings[listingId];
    var e := twice.listings[listingId];
    assert e == d;
    assert twice.listings == once.listings;
  }

  /** An empty patch is accepted from the owner and changes nothing. */
  lemma UpdateEmptyPatch(db: Db, listingId: string, uid: string)
    requires listingId in db.listings && db.listings[listingId].ownerId == Some(uid)
    ensures UpdateListing(db, listingId, uid, Patch(None, None, None, None, None, None)) == Ok(db)
  {
    var r := UpdateListing(db, listingId, uid, Patch(None, None, None, None, None, None)).value;
    assert r.listings[listingId] == db.listings[listingId];
    assert r.listings == db.listings;
  }

  // ---------------------------------------------------------------------------
  // deleteListing
  // ---------------------------------------------------------------------------

  /** The store afterwards and the storage paths whose deletion is then
      attempted (best effort; the outcome of each is not observed). */
  datatype Deleted = Deleted(db: Db, blobPaths: seq<string>)

  /** `deleteListing`: a missing listing is a silent no-op; another owner's
      listing is refused; otherwise the document goes and the recorded
      `imagePaths` (none when the field is absent) are released. The users
      collection is not touched, so quota is never given back. */
  function DeleteListing(db: Db, listingId: string, uid: string): (r: Result<Deleted, UpdateError>)
    ensures r.Err? <==> listingId in db.listings && db.listings[listingId].ownerId != Some(uid)
    ensures r.Err? ==> r.error == Forbidden
    ensures listingId !in db.listings ==> r == Ok(Deleted(db, []))
    ensures r.Ok? ==> r.value.db.users == db.users
    ensures r.Ok? ==> r.value.db.listings == db.listings - {listingId}
    ensures r.Ok? && listingId in db.listings ==>
              r.value.blobPaths == db.listings[listingId].imagePaths.GetOr([])
  {
    if listingId !in db.listings then Ok(Deleted(db, []))
    else
      var d := db.listings[listingId];
      if d.ownerId != Some(uid) then Err(Forbidden)
      else Ok(Deleted(db.(listings := db.listings - {listingId}), d.imagePaths.GetOr([])))
  }

  /** Deleting twice is deleting once: the second call finds nothing. */
  lemma DeleteIdempotent(db: Db, listingId: string, uid: string)
    requires DeleteListing(db, listingId, uid).Ok?
    ensures var once := DeleteListing(db, listingId, uid).value.db;
      DeleteListing(once, listingId, uid) == Ok(Deleted(once, []))
  {
  }

  /** Creating and then deleting a listing releases exactly the storage paths
      the creation uploaded to, restores the listings collection, and keeps
      the counter the creation raised. */
  lemma CreateThenDelete(db: Db, p: CreateParams, newId: string, now: Timestamp,
                         upload: (string, File) -> Option<string>)
    requires newId !in db.listings
    requires CreateListingWithPlanLimits(db, p, newId, now, upload).result.Ok?
    ensures var created := CreateListingWithPlanLimits(db, p, newId, now, upload).db;
            var r := DeleteListing(created, newId, p.uid);
      && r.Ok?
      && r.value.blobPaths == Storage.Paths(p.uid, newId, p.files)
      && r.value.db.listings == db.listings
      && r.value.db.users == created.users
      && (p.plan == Free ==> UsedCount(r.value.db.users, p.uid) == UsedCount(db.users, p.uid) + 1)
  {
    var r := CreateListingWithPlanLimits(db, p, newId, now, upload);
    var created := r.db;
    assert r == CommitCreate(db, p, newId, BaseDoc(p, now), upload);
    CreateCountsFreeListings(db, p, newId, now, upload);
    assert created.listings == db.listings[newId := created.listings[newId]];
    AddThenRemove(db.listings, newId, created.listings[newId]);
  }

  lemma AddThenRemove<K, V>(m: map<K, V>, k: K, v: V)
    requires k !in m
    ensures m[k := v] - {k} == m
  {
    assert (m[k := v] - {k}).Keys == m.Keys;
  }
}

=== FILE: local_app.dfy ===
/** The local, browser-only provider (app/providers.tsx): a user id derived
    from the contact details, newest-first listings, and log in / log out.
    Persistence to local storage, the random part of ids and the clock are
    parameters or left out. */
module LocalApp {
  import opened Wrappers
  import opened Text
  import opened Seqs

  /** `[\w+]`. */
  predicate IsIdChar(c: char) {
    IsWordChar(c) || c == '+'
  }

  /** The characters an id is made of after lower-casing: `[a-z0-9_+]`. */
  predicate IsLowerIdChar(c: char) {
    ('a' <= c <= 'z') || IsDigit(c) || c == '_' || c == '+'
  }

  /** `whatsapp || name || "user"`: the first non-empty of the three. */
  function IdSource(name: string, whatsapp: string): (s: string)
    ensures whatsapp != "" ==> s == whatsapp
    ensures whatsapp == "" && name != "" ==> s == name
    ensures whatsapp == "" && name == "" ==> s == "user"
  {
    if whatsapp != "" then whatsapp else if name != "" then name else "user"
  }

  /** `makeUserId`: trim and lower-case the source, then drop white space and
      every character outside `[\w+]`. */
  function MakeUserId(name: string, whatsapp: string): (r: string)
    ensures NoSpace(r)
    ensures forall i :: 0 <= i < |r| ==> IsLowerIdChar(r[i])
    ensures r == Filter(Lower(Trim(IdSource(name, whatsapp))), IsIdChar)
  {
    var base := Lower(Trim(IdSource(name, whatsapp)));
    var noSpace := Filter(base, c => !IsSpace(c));
    var r := Filter(noSpace, IsIdChar);
    FilterFilter(base, c => !IsSpace(c), IsIdChar, IsIdChar);
    assert forall i :: 0 <= i < |r| ==> r[i] in base;
    r
  }

  /** With neither number nor name the id is "user". */
  lemma MakeUserIdDefault()
    ensures MakeUserId("", "") == "user"
  {
    TrimNoSpace("user");
    assert Lower("user") == "user";
    FilterKeepsAll("user", IsIdChar);
  }

  /** Without a number the name is the source: the id is the one the name
      would give if it were typed as the number. */
  lemma MakeUserIdFallsBackToName(name: string, other: string)
    requires name != ""
    ensures MakeUserId(name, "") == MakeUserId(other, name)
  {
  }

  /** An id is its own id: logging in with an id as the WhatsApp number gives
      that id back, whatever the name. */
  lemma MakeUserIdFixpoint(name: string, id: string)
    requires id != "" && forall i :: 0 <= i < |id| ==> IsLowerIdChar(id[i])
    ensures MakeUserId(name, id) == id
  {
    assert NoSpace(id);
    TrimNoSpace(id);
    assert Lower(id) == id;
    FilterKeepsAll(id, c => !IsSpace(c));
    FilterKeepsAll(id, IsIdChar);
  }

  /** With a number given, the name plays no part in the id. */
  lemma MakeUserIdPrefersNumber(n1: string, n2: string, whatsapp: string)
    requires whatsapp != ""
    ensures MakeUserId(n1, whatsapp) == MakeUserId(n2, whatsapp)
  {
  }

  /** A stored listing of the local app. */
  datatype AppListing = AppListing(
    id: string,
    title: string,
    price: string,
    category: string,
    location: string,
    description: string,
    whatsapp: string,
    photos: seq<string>,
    createdAt: int,
    userId: string)

  /** What a caller hands to `addListing`: everything but id and time. */
  datatype ListingInput = ListingInput(
    title: string,
    price: string,
    category: string,
    location: string,
    description: string,
    whatsapp: string,
    photos: seq<string>,
    userId: string)

  /** `addListing`: the new item, with the generated `id` and the time
      `now`, goes to the head; the old list follows unchanged. */
  function AddListing(listings: seq<AppListing>, l: ListingInput, id: string, now: int): (r: (seq<AppListing>, string))
    ensures |r.0| == |listings| + 1 && r.0[1..] == listings && r.1 == id
    ensures var n := r.0[0];
      && n.id == id && n.createdAt == now
      && n.title == l.title && n.price == l.price && n.category == l.category
      && n.location == l.location && n.description == l.description
      && n.whatsapp == l.whatsapp && n.photos == l.photos && n.userId == l.userId
  {
    ([AppListing(id, l.title, l.price, l.category, l.location, l.description, l.whatsapp, l.photos, now, l.userId)]
       + listings, id)
  }

  /** Two additions leave the later one first and the earlier one second. */
  lemma AddListingNewestFirst(listings: seq<AppListing>, a: ListingInput, b: ListingInput,
                              ida: string, idb: string, t1: int, t2: int)
    ensures var once := AddListing(listings, a, ida, t1).0;
            var twice := AddListing(once, b, idb, t2).0;
      && twice[0].id == idb && twice[1].id == ida && twice[2..] == listings
  {
    var once := AddListing(listings, a, ida, t1).0;
    var twice := AddListing(once, b, idb, t2).0;
    assert twice[2..] == once[1..];
  }

  datatype User = User(id: string, name: string, whatsapp: string)

  /** `login`. */
  function Login(name: string, whatsapp: string): (r: Option<User>)
    ensures r.Some? && r.value.name == name && r.value.whatsapp == whatsapp
    ensures r.value.id == MakeUserId(name, whatsapp)
    ensures NoSpace(r.value.id)
  {
    Some(User(MakeUserId(name, whatsapp), name, whatsapp))
  }

  /** `logout`. */
  function Logout(): (r: Option<User>)
    ensures r.None?
  {
    None
  }

  /** Logging in with a user's id as the number, under any name, keeps the
      id. */
  lemma LoginStable(name: string, whatsapp: string, other: string)
    ensures var u := Login(name, whatsapp).value;
      u.id != "" ==> Login(other, u.id).value.id == u.id
  {
    var u := Login(name, whatsapp).value;
    if u.id != "" {
      MakeUserIdFixpoint(other, u.id);
    }
  }
}

=== FILE: model.dfy ===
/** The entities the listing store holds. Documents in the store are
    schemaless, so every field a writer may omit is an `Option`. */
module Model {
  import opened Wrappers

  /** A picked file: its name and its MIME type (`File.type`). */
  datatype File = File(name: string, mime: string, size: nat)

  /** An opaque server-assigned timestamp (`serverTimestamp()`). */
  datatype Timestamp = ServerTime(tick: int)

  datatype Plan = Free | Pro
  datatype Kind = Product | Service
  datatype Condition = Novo | Usado
  datatype ServiceType = Presencial | Online | Ambos
  datatype Status = Active | Inactive

  /** A `users/{uid}` document as stored. `plan` is kept as the raw string the
      document holds, since readers compare it against "pro". */
  datatype ProfileDoc = ProfileDoc(
    email: Option<string>,
    plan: Option<string>,
    freeListingsUsed: Option<int>,
    whatsapp: Option<string>,
    createdAt: Option<Timestamp>)

  /** A `listings/{id}` document as stored. */
  datatype ListingDoc = ListingDoc(
    ownerId: Option<string>,
    title: string,
    price: string,
    category: string,
    location: string,
    description: string,
    kind: Kind,
    condition: Option<Condition>,
    serviceType: Option<ServiceType>,
    whatsapp: Option<string>,
    images: seq<string>,
    imagePaths: Option<seq<string>>,
    status: Option<Status>,
    planAtCreation: Option<Plan>,
    createdAt: Option<Timestamp>)

  /** The two collections the application writes. */
  datatype Db = Db(users: map<string, ProfileDoc>, listings: map<string, ListingDoc>)
}

=== FILE: new_form.dfy ===
/** The new-listing form (app/new/ui.tsx): the plan-derived photo cap, the
    photo-list editors, the submit guard and the ordered checks `onSubmit`
    makes before it hands the request to `createListingWithPlanLimits`. */
module NewForm {
  import opened Wrappers
  import opened Text
  import opened Seqs
  import opened Model
  import Auth
  import Listings
  import PricePattern

  /** `userDoc?.plan === "pro" ? "pro" : "free"`. */
  function PlanOf(userDoc: Option<Auth.UserDoc>): (p: Plan)
    ensures p == Pro <==> userDoc.Some? && userDoc.value.plan == Pro
  {
    if userDoc.Some? && userDoc.value.plan == Pro then Pro else Free
  }

  /** `maxPhotos`: 7 on the pro plan, 3 otherwise. */
  function MaxPhotos(plan: Plan): (n: nat)
    ensures n == 7 <==> plan == Pro
    ensures plan == Free ==> n == 3
  {
    if plan == Pro then 7 else 3
  }

  /** The form allows exactly as many photos as creation accepts. */
  lemma MaxPhotosIsCreationCap(plan: Plan)
    ensures MaxPhotos(plan) == Listings.PhotoCap(plan)
  {
  }

  // ---------------------------------------------------------------------------
  // Photo list
  // ---------------------------------------------------------------------------

  /** The new photo list and whether the "only the first ones" notice shows. */
  datatype Picked = Picked(files: seq<File>, capNotice: bool)

  /** `onPickFiles`: no file list changes nothing; otherwise the picked files
      are appended and the list cut to `maxPhotos`, with a notice when
      anything was cut. */
  function PickFiles(files: seq<File>, list: Option<seq<File>>, maxPhotos: nat): (r: Picked)
    ensures list.None? ==> r == Picked(files, false)
    ensures list.Some? ==>
              && |r.files| == (if |files| + |list.value| < maxPhotos then |files| + |list.value| else maxPhotos)
              && r.files == (files + list.value)[..|r.files|]
              && (|files| <= maxPhotos ==> r.files[..|files|] == files)
              && (r.capNotice <==> |r.files| < |files| + |list.value|)
  {
    match list
    case None => Picked(files, false)
    case Some(picked) =>
      var next := files + picked;
      CappedAppend(files, picked, maxPhotos);
      Picked(Take(next, maxPhotos), |next| > maxPhotos)
  }

  /** `removeFile(index)`: `prev.filter((_, i) => i !== index)`. */
  function RemoveFile(files: seq<File>, index: int): (r: seq<File>)
    ensures r == FilterIndex(files, index, 0)
    ensures 0 <= index < |files| ==> multiset(r) + multiset{files[index]} == multiset(files)
    ensures !(0 <= index < |files|) ==> r == files
  {
    FilterIndexRemoves(files, index, 0);
    RemoveIndex(files, index)
  }

  /** `moveFile(index, dir)`: swap with the neighbour in direction `dir`,
      unless that neighbour does not exist. The buttons only offer indices
      of the list. */
  function MoveFile(files: seq<File>, index: nat, dir: int): (r: seq<File>)
    requires index < |files| && (dir == -1 || dir == 1)
    ensures |r| == |files| && multiset(r) == multiset(files)
    ensures 0 <= index + dir < |files| ==>
              && r[index] == files[index + dir] && r[index + dir] == files[index]
              && forall k :: 0 <= k < |files| && k != index && k != index + dir ==> r[k] == files[k]
    ensures !(0 <= index + dir < |files|) ==> r == files
  {
    var to := index + dir;
    if to < 0 || to >= |files| then files else Swap(files, index, to)
  }

  /** Moving a photo one way and then back restores the list. */
  lemma MoveFileBack(files: seq<File>, index: nat, dir: int)
    requires index < |files| && (dir == -1 || dir == 1)
    requires 0 <= index + dir < |files|
    ensures MoveFile(MoveFile(files, index, dir), index + dir, -dir) == files
  {
    var once := MoveFile(files, index, dir);
    var twice := MoveFile(once, index + dir, -dir);
    assert forall k :: 0 <= k < |files| ==> twice[k] == files[k];
  }

  // ---------------------------------------------------------------------------
  // Submit
  // ---------------------------------------------------------------------------

  /** The form state `onSubmit` reads. `uid` is "" while no user is known. */
  datatype Form = Form(
    uid: string,
    title: string,
    categoryId: string,
    location: string,
    description: string,
    whatsapp: string,
    price: string,
    kind: Kind,
    condition: Condition,
    serviceType: ServiceType,
    files: seq<File>)

  datatype FormError =
    | NoSession       // "Sessão a carregar…"
    | NoTitle         // "Escreve um título."
    | NoCategory      // "Seleciona uma categoria."
    | NoLocation      // "Escreve a localização."
    | NoDescription   // "Escreve a descrição."
    | NoWhatsapp      // "Escreve o WhatsApp do vendedor."
    | NoPhotos        // "Adiciona pelo menos 1 foto."
    | BadPrice        // "Preço inválido."
    | ShortWhatsapp   // "WhatsApp parece curto."

  /** `canSubmit`: the submit button's guard. */
  predicate CanSubmit(f: Form) {
    f.uid != "" && !Blank(f.title) && !Blank(f.categoryId) && !Blank(f.location)
    && !Blank(f.description) && !Blank(f.whatsapp) && |f.files| > 0
  }

  /** The first seven checks of `onSubmit`, in their order. */
  function FirstMissing(f: Form): (r: Option<FormError>)
    ensures r.Some? ==> r.value in {NoSession, NoTitle, NoCategory, NoLocation, NoDescription, NoWhatsapp, NoPhotos}
    ensures r.None? <==> CanSubmit(f)
    ensures r == Some(NoSession) <==> f.uid == ""
    ensures r == Some(NoTitle) <==> f.uid != "" && Blank(f.title)
    ensures r == Some(NoCategory) <==> f.uid != "" && !Blank(f.title) && Blank(f.categoryId)
    ensures r == Some(NoLocation) <==>
      f.uid != "" && !Blank(f.title) && !Blank(f.categoryId) && Blank(f.location)
    ensures r == Some(NoDescription) <==>
      f.uid != "" && !Blank(f.title) && !Blank(f.categoryId) && !Blank(f.location) && Blank(f.description)
    ensures r == Some(NoWhatsapp) <==>
      f.uid != "" && !Blank(f.title) && !Blank(f.categoryId) && !Blank(f.location) && !Blank(f.description)
      && Blank(f.whatsapp)
    ensures r == Some(NoPhotos) <==>
      f.uid != "" && !Blank(f.title) && !Blank(f.categoryId) && !Blank(f.location) && !Blank(f.description)
      && !Blank(f.whatsapp) && |f.files| == 0
  {
    if f.uid == "" then Some(NoSession)
    else if Blank(f.title) then Some(NoTitle)
    else if Blank(f.categoryId) then Some(NoCategory)
    else if Blank(f.location) then Some(NoLocation)
    else if Blank(f.description) then Some(NoDescription)
    else if Blank(f.whatsapp) then Some(NoWhatsapp)
    else if |f.files| == 0 then Some(NoPhotos)
    else None
  }

  /** The button guard and the submit checks agree. */
  lemma CanSubmitIffNothingMissing(f: Form)
    ensures CanSubmit(f) <==> FirstMissing(f).None?
  {
  }

  predicate IsPhoneChar(c: char) {
    IsDigit(c) || c == '+'
  }

  /** `digitsOnly`: `replace(/[^\d+]/g, "")`. */
  function DigitsOnly(v: string): (r: string)
    ensures |r| <= |v|
    ensures forall i :: 0 <= i < |r| ==> IsPhoneChar(r[i])
    ensures forall i :: 0 <= i < |v| && IsPhoneChar(v[i]) ==> v[i] in r
    ensures NoSpace(r)
    ensures IsSubsequence(r, v)
  {
    FilterIsSubsequence(v, IsPhoneChar);
    Filter(v, IsPhoneChar)
  }

  /** Cleaning works character by character: a digit or '+' is kept as it
      is, anything else is dropped, and the cleaned halves of a number join
      into the cleaned whole. Together these fix the order and the number of
      times each kept character appears. */
  lemma DigitsOnlyPerCharacter(a: string, b: string, c: char)
    ensures DigitsOnly([]) == []
    ensures DigitsOnly([c]) == if IsPhoneChar(c) then [c] else []
    ensures DigitsOnly(a + b) == DigitsOnly(a) + DigitsOnly(b)
  {
    FilterConcat(a, b, IsPhoneChar);
  }

  /** Cleaning a cleaned number changes nothing. */
  lemma DigitsOnlyIdempotent(v: string)
    ensures DigitsOnly(DigitsOnly(v)) == DigitsOnly(v)
  {
    FilterIdempotent(v, IsPhoneChar);
  }

  /** `wa.replace(/[^\d]/g, "").length`. */
  function DigitCount(s: string): (n: nat)
    ensures n <= |s|
  {
    |Filter(s, IsDigit)|
  }

  /** A non-blank price must have the shape `^\d+([.,]\d+)?$` once trimmed. */
  predicate PriceAccepted(price: string) {
    Blank(price) || PricePattern.PriceShape(Trim(price))
  }

  /** `onSubmit` up to the call: the seven presence checks, then the price
      pattern, then at least seven digits in the cleaned WhatsApp number; the
      request carries the trimmed fields, `condition` only for products,
      `serviceType` only for services and the cleaned number. */
  function Submit(f: Form, userDoc: Option<Auth.UserDoc>): (r: Result<Listings.CreateParams, FormError>)
    ensures FirstMissing(f).Some? ==> r == Err(FirstMissing(f).value)
    ensures r == Err(BadPrice) <==> CanSubmit(f) && !PriceAccepted(f.price)
    ensures r == Err(ShortWhatsapp) <==>
              CanSubmit(f) && PriceAccepted(f.price) && DigitCount(DigitsOnly(f.whatsapp)) < 7
    ensures r.Ok? <==> CanSubmit(f) && PriceAccepted(f.price) && DigitCount(DigitsOnly(f.whatsapp)) >= 7
    ensures r.Ok? ==>
              var p := r.value;
              && p.uid == f.uid && p.plan == PlanOf(userDoc)
              && p.title == Trim(f.title) && p.price == Trim(f.price)
              && p.category == Trim(f.categoryId) && p.location == Trim(f.location)
              && p.description == Trim(f.description)
              && p.kind == f.kind
              && p.condition == (if f.kind == Product then Some(f.condition) else None)
              && p.serviceType == (if f.kind == Service then Some(f.serviceType) else None)
              && p.whatsapp == Some(DigitsOnly(f.whatsapp))
              && p.files == f.files
  {
    CanSubmitIffNothingMissing(f);
    match FirstMissing(f)
    case Some(e) => Err(e)
    case None =>
      var price := Trim(f.price);
      PricePattern.MatchPriceIffShape(price);
      if price != [] && !PricePattern.MatchPrice(price) then Err(BadPrice)
      else
        var wa := Trim(DigitsOnly(f.whatsapp));
        TrimNoSpace(DigitsOnly(f.whatsapp));
        if DigitCount(wa) < 7 then Err(ShortWhatsapp)
        else
          Ok(Listings.CreateParams(
            uid := f.uid,
            plan := PlanOf(userDoc),
            title := Trim(f.title),
            price := price,
            category := Trim(f.categoryId),
            location := Trim(f.location),
            description := Trim(f.description),
            kind := f.kind,
            condition := if f.kind == Product then Some(f.condition) else None,
            serviceType := if f.kind == Service then Some(f.serviceType) else None,
            files := f.files,
            whatsapp := Some(wa)))
  }

  /** A request the form lets through passes creation's own input checks and,
      when its photos fit the form's cap, the photo cap too; the number it
      sends is stored as sent. */
  lemma SubmittedRequestIsValid(f: Form, userDoc: Option<Auth.UserDoc>)
    requires Submit(f, userDoc).Ok?
    ensures var p := Submit(f, userDoc).value;
      && Listings.ValidateCreate(p).None?
      && (|f.files| <= MaxPhotos(p.plan) ==> |p.files| <= Listings.PhotoCap(p.plan))
      && Listings.OptionalTrimmed(p.whatsapp) == p.whatsapp
  {
    var p := Submit(f, userDoc).value;
    TrimIdempotent(f.title);
    TrimIdempotent(f.categoryId);
    TrimIdempotent(f.location);
    TrimIdempotent(f.description);
    var wa := DigitsOnly(f.whatsapp);
    TrimNoSpace(wa);
    assert wa != [];
  }

  /** Photos picked through the form never exceed what creation accepts for
      the same plan. */
  lemma PickedFilesFitCreation(files: seq<File>, picked: seq<File>, userDoc: Option<Auth.UserDoc>)
    ensures var plan := PlanOf(userDoc);
      |PickFiles(files, Some(picked), MaxPhotos(plan)).files| <= Listings.PhotoCap(plan)
  {
  }
}

=== FILE: new_page.dfy ===
/** The earlier new-listing page (app/new/page.tsx): a fixed cap of three
    photos, removal by `filter`, the submit guard and the sign-in check
    before anything is uploaded. */
module NewPage {
  import opened Text
  import opened Seqs
  import opened Model
  import opened Wrappers
  import NewForm

  const MaxPhotos: nat := 3

  /** `onPickPhotos`: an empty pick changes nothing; otherwise the picked
      files are appended and the list cut to three. */
  function PickPhotos(photos: seq<File>, picked: seq<File>): (r: seq<File>)
    ensures picked == [] ==> r == photos
    ensures picked != [] ==>
              && |r| == (if |photos| + |picked| < MaxPhotos then |photos| + |picked| else MaxPhotos)
              && r == (photos + picked)[..|r|]
              && (|photos| <= MaxPhotos ==> r[..|photos|] == photos)
  {
    if |picked| == 0 then photos
    else
      CappedAppend(photos, picked, MaxPhotos);
      Take(photos + picked, MaxPhotos)
  }

  /** `removePhoto(index)`: `prev.filter((_, i) => i !== index)`. */
  function RemovePhoto(photos: seq<File>, index: int): (r: seq<File>)
    ensures r == FilterIndex(photos, index, 0)
    ensures |r| <= |photos|
    ensures 0 <= index < |photos| ==> multiset(r) + multiset{photos[index]} == multiset(photos)
  {
    FilterIndexRemoves(photos, index, 0);
    RemoveIndex(photos, index)
  }

  /** From a list within the cap, picking and removing keep at most three
      photos. */
  lemma PhotosStayCapped(photos: seq<File>, picked: seq<File>, index: int)
    requires |photos| <= MaxPhotos
    ensures |PickPhotos(photos, picked)| <= MaxPhotos
    ensures |RemovePhoto(photos, index)| <= MaxPhotos
  {
  }

  /** The page's pick is the form's pick with the free-plan cap. */
  lemma PickPhotosIsFreePick(photos: seq<File>, picked: seq<File>)
    requires picked != []
    ensures PickPhotos(photos, picked) == NewForm.PickFiles(photos, Some(picked), NewForm.MaxPhotos(Free)).files
  {
  }

  /** The page's form state. */
  datatype PageForm = PageForm(
    title: string,
    price: string,
    category: string,
    location: string,
    description: string,
    whatsapp: string,
    photos: seq<File>)

  /** `canSubmit`. */
  predicate CanSubmit(f: PageForm, submitting: bool) {
    |Trim(f.title)| > 0 && |Trim(f.category)| > 0 && |Trim(f.location)| > 0
    && |Trim(f.description)| > 0 && |Trim(f.whatsapp)| > 0 && |f.photos| > 0 && !submitting
  }

  /** The record handed to `createListing`: trimmed fields, the URLs the
      upload returned, and the user id. */
  datatype PageListing = PageListing(
    title: string,
    price: string,
    category: string,
    location: string,
    description: string,
    whatsapp: string,
    photos: seq<string>,
    userId: string)

  /** No user id; the upload threw ("Erro ao publicar anúncio."); or the
      record to create. */
  datatype PageOutcome = NeedsLogin | UploadFailed | Publish(listing: PageListing)

  /** `onSubmit`: without a user id nothing is uploaded or created;
      otherwise the photos are uploaded first (`upload` stands for
      `uploadPhotos`, `None` for a rejected promise) and the trimmed fields
      go out with the returned URLs under the user's id. */
  function Submit(userId: Option<string>, f: PageForm, upload: (seq<File>, string) -> Option<seq<string>>): (r: PageOutcome)
    ensures r.NeedsLogin? <==> userId.None? || userId.value == ""
    ensures r.UploadFailed? <==> userId.Some? && userId.value != "" && upload(f.photos, userId.value).None?
    ensures r.Publish? ==>
              && r.listing.userId == userId.value
              && Some(r.listing.photos) == upload(f.photos, userId.value)
              && r.listing.title == Trim(f.title) && r.listing.price == Trim(f.price)
              && r.listing.category == Trim(f.category) && r.listing.location == Trim(f.location)
              && r.listing.description == Trim(f.description) && r.listing.whatsapp == Trim(f.whatsapp)
  {
    if userId.None? || userId.value == "" then NeedsLogin
    else
      match upload(f.photos, userId.value)
      case None => UploadFailed
      case Some(urls) =>
        Publish(PageListing(Trim(f.title), Trim(f.price), Trim(f.category), Trim(f.location),
                            Trim(f.description), Trim(f.whatsapp), urls, userId.value))
  }

  /** A submission the button allows, by a signed-in user whose upload
      returns one URL per photo, publishes a record
      whose required fields are non-empty and already trimmed. */
  lemma EnabledSubmitPublishesTrimmed(userId: string, f: PageForm, urls: seq<string>)
    requires userId != "" && CanSubmit(f, false) && |urls| == |f.photos|
    ensures var r := Submit(Some(userId), f, (photos: seq<File>, id: string) => Some(urls));
      && r.Publish? && |r.listing.photos| > 0
      && r.listing.title != [] && Trim(r.listing.title) == r.listing.title
      && r.listing.category != [] && Trim(r.listing.category) == r.listing.category
      && r.listing.location != [] && Trim(r.listing.location) == r.listing.location
      && r.listing.description != [] && Trim(r.listing.description) == r.listing.description
      && r.listing.whatsapp != [] && Trim(r.listing.whatsapp) == r.listing.whatsapp
  {
    TrimIdempotent(f.title);
    TrimIdempotent(f.category);
    TrimIdempotent(f.location);
    TrimIdempotent(f.description);
    TrimIdempotent(f.whatsapp);
  }
}

=== FILE: price_pattern.dfy ===
/** The price pattern `^\d+([.,]\d+)?$` of the new-listing form
    (app/new/ui.tsx), as a left-to-right matcher and as a declarative
    description of the strings it accepts, with a proof that the two agree. */
module PricePattern {
  import opened Text

  predicate IsSeparator(c: char) {
    c == '.' || c == ','
  }

  /** Every character of `s[lo..hi]` is a digit. */
  predicate DigitsIn(s: string, lo: int, hi: int)
    requires 0 <= lo && hi <= |s|
  {
    forall i :: lo <= i < hi ==> IsDigit(s[i])
  }

  /** A separator at some `k >= lo` with only digits between `lo` and `k` and
      one or more digits after it, up to the end. */
  predicate FractionAt(s: string, lo: nat)
    requires lo <= |s|
  {
    exists k :: lo <= k < |s| - 1 && IsSeparator(s[k]) && DigitsIn(s, lo, k) && DigitsIn(s, k + 1, |s|)
  }

  /** One or more digits, optionally followed by one separator and one or
      more digits. */
  predicate PriceShape(s: string) {
    || (s != [] && DigitsIn(s, 0, |s|))
    || exists k :: 0 < k < |s| - 1 && IsSeparator(s[k]) && DigitsIn(s, 0, k) && DigitsIn(s, k + 1, |s|)
  }

  /** Where the matcher stands: nothing read, in the whole part, just past the
      separator, in the fraction, or failed. */
  datatype MatchState = Start | Whole | Point | Fraction | Dead

  function Step(st: MatchState, c: char): MatchState {
    match st
    case Start => if IsDigit(c) then Whole else Dead
    case Whole => if IsDigit(c) then Whole else if IsSeparator(c) then Point else Dead
    case Point => if IsDigit(c) then Fraction else Dead
    case Fraction => if IsDigit(c) then Fraction else Dead
    case Dead => Dead
  }

  /** The state after reading `s` from position `i` on, starting in `st`. */
  function Run(s: string, i: nat, st: MatchState): MatchState
    requires i <= |s|
    decreases |s| - i
  {
    if i == |s| then st else Run(s, i + 1, Step(st, s[i]))
  }

  /** `/^\d+([.,]\d+)?$/.test(s)`. */
  predicate MatchPrice(s: string) {
    Run(s, 0, Start) == Whole || Run(s, 0, Start) == Fraction
  }

  lemma {:induction false} RunDead(s: string, i: nat)
    requires i <= |s|
    ensures Run(s, i, Dead) == Dead
    decreases |s| - i
  {
    if i < |s| {
      RunDead(s, i + 1);
    }
  }

  lemma {:induction false} RunFraction(s: string, i: nat)
    requires i <= |s|
    ensures Run(s, i, Fraction) == if DigitsIn(s, i, |s|) then Fraction else Dead
    decreases |s| - i
  {
    if i < |s| {
      if IsDigit(s[i]) {
        RunFraction(s, i + 1);
      } else {
        RunDead(s, i + 1);
      }
    }
  }

  lemma RunPoint(s: string, i: nat)
    requires i <= |s|
    ensures Run(s, i, Point) != Whole
    ensures Run(s, i, Point) == Fraction <==> i < |s| && DigitsIn(s, i, |s|)
  {
    if i < |s| {
      if IsDigit(s[i]) {
        RunFraction(s, i + 1);
      } else {
        RunDead(s, i + 1);
      }
    }
  }

  /** Over a leading digit the fraction tails from `lo` and from `lo + 1`
      are the same. */
  lemma FractionAtDigit(s: string, lo: nat)
    requires lo < |s| && IsDigit(s[lo])
    ensures FractionAt(s, lo) <==> FractionAt(s, lo + 1)
  {
    if FractionAt(s, lo) {
      var k :| lo <= k < |s| - 1 && IsSeparator(s[k]) && DigitsIn(s, lo, k) && DigitsIn(s, k + 1, |s|);
      assert k != lo;
      assert DigitsIn(s, lo + 1, k);
    }
    if FractionAt(s, lo + 1) {
      var k :| lo + 1 <= k < |s| - 1 && IsSeparator(s[k]) && DigitsIn(s, lo + 1, k) && DigitsIn(s, k + 1, |s|);
      assert DigitsIn(s, lo, k);
    }
  }

  /** At a separator the only fraction tail is the one that starts there. */
  lemma FractionAtSeparator(s: string, lo: nat)
    requires lo < |s| && IsSeparator(s[lo])
    ensures FractionAt(s, lo) <==> lo + 1 < |s| && DigitsIn(s, lo + 1, |s|)
  {
    if FractionAt(s, lo) {
      var k :| lo <= k < |s| - 1 && IsSeparator(s[k]) && DigitsIn(s, lo, k) && DigitsIn(s, k + 1, |s|);
      assert !(lo < k);
    }
    if lo + 1 < |s| && DigitsIn(s, lo + 1, |s|) {
      assert DigitsIn(s, lo, lo);
    }
  }

  /** At any other character there is no fraction tail. */
  lemma FractionAtOther(s: string, lo: nat)
    requires lo < |s| && !IsDigit(s[lo]) && !IsSeparator(s[lo])
    ensures !FractionAt(s, lo)
  {
  }

  /** In the whole part the matcher ends there exactly on a run of digits,
      and in the fraction exactly on a fraction tail. */
  lemma {:induction false} RunWhole(s: string, i: nat)
    requires i <= |s|
    ensures Run(s, i, Whole) == Whole <==> DigitsIn(s, i, |s|)
    ensures Run(s, i, Whole) == Fraction <==> FractionAt(s, i)
    decreases |s| - i
  {
    if i < |s| {
      if IsDigit(s[i]) {
        RunWhole(s, i + 1);
        FractionAtDigit(s, i);
      } else if IsSeparator(s[i]) {
        RunPoint(s, i + 1);
        FractionAtSeparator(s, i);
      } else {
        RunDead(s, i + 1);
        FractionAtOther(s, i);
      }
    }
  }

  /** The matcher accepts exactly the strings of the declared shape. */
  lemma MatchPriceIffShape(s: string)
    ensures MatchPrice(s) <==> PriceShape(s)
  {
    if s != [] {
      if IsDigit(s[0]) {
        RunWhole(s, 1);
        assert DigitsIn(s, 0, |s|) <==> DigitsIn(s, 1, |s|);
        if FractionAt(s, 1) {
          var k :| 1 <= k < |s| - 1 && IsSeparator(s[k]) && DigitsIn(s, 1, k) && DigitsIn(s, k + 1, |s|);
          assert DigitsIn(s, 0, k);
        }
        if exists k :: 0 < k < |s| - 1 && IsSeparator(s[k]) && DigitsIn(s, 0, k) && DigitsIn(s, k + 1, |s|) {
          var k :| 0 < k < |s| - 1 && IsSeparator(s[k]) && DigitsIn(s, 0, k) && DigitsIn(s, k + 1, |s|);
          assert DigitsIn(s, 1, k);
        }
      } else {
        RunDead(s, 1);
      }
    }
  }

  /** Examples: "1500" and "12,50" match; "12," and ",5" and "1 500" do not. */
  lemma PriceExamples()
    ensures MatchPrice("1500") && MatchPrice("12,50") && MatchPrice("0.5")
    ensures !MatchPrice("12,") && !MatchPrice(",5") && !MatchPrice("1 500") && !MatchPrice("")
  {
  }
}

=== FILE: seqs.dfy ===
/** Generic sequence operations shared by the photo-list editors and the feed:
    JavaScript's `filter`, `slice(0, n)`, index deletion, `splice`-based moves,
    swaps and first-occurrence de-duplication. */
module Seqs {

  // ---------------------------------------------------------------------------
  // Filter and order-preserving subsequences
  // ---------------------------------------------------------------------------

  /** `xs.filter(p)`. */
  function Filter<T>(xs: seq<T>, p: T -> bool): (r: seq<T>)
    ensures |r| <= |xs|
    ensures forall i :: 0 <= i < |r| ==> p(r[i])
    ensures forall i :: 0 <= i < |r| ==> r[i] in xs
    ensures forall i :: 0 <= i < |xs| && p(xs[i]) ==> xs[i] in r
  {
    if |xs| == 0 then []
    else if p(xs[0]) then [xs[0]] + Filter(xs[1..], p)
    else Filter(xs[1..], p)
  }

  /** `idx` picks out `a` from `b` at strictly increasing positions. */
  ghost predicate SubsequenceVia<T>(a: seq<T>, b: seq<T>, idx: seq<int>) {
    && |idx| == |a|
    && (forall k :: 0 <= k < |idx| ==> 0 <= idx[k] < |b| && a[k] == b[idx[k]])
    && (forall k, l :: 0 <= k < l < |idx| ==> idx[k] < idx[l])
  }

  /** `a` is an order-preserving subsequence of `b`. */
  ghost predicate IsSubsequence<T>(a: seq<T>, b: seq<T>) {
    exists idx :: SubsequenceVia(a, b, idx)
  }

  /** Shifts every position of a witness by one (for a one-longer host). */
  function Shift(idx: seq<int>): (r: seq<int>)
    ensures |r| == |idx|
    ensures forall k :: 0 <= k < |r| ==> r[k] == idx[k] + 1
  {
    seq(|idx|, k requires 0 <= k < |idx| => idx[k] + 1)
  }

  /** A witness for `a` in `b` also places `a` in `[x] + b`, one further on. */
  lemma SkipVia<T>(x: T, a: seq<T>, b: seq<T>, idx: seq<int>)
    requires SubsequenceVia(a, b, idx)
    ensures SubsequenceVia(a, [x] + b, Shift(idx))
  {
    var s := Shift(idx);
    forall k | 0 <= k < |s|
      ensures 0 <= s[k] < |[x] + b| && a[k] == ([x] + b)[s[k]]
    {
      assert ([x] + b)[idx[k] + 1] == b[idx[k]];
    }
  }

  /** A witness for `a` in `b` extends to `[x] + a` in `[x] + b`. */
  lemma ConsVia<T>(x: T, a: seq<T>, b: seq<T>, idx: seq<int>)
    requires SubsequenceVia(a, b, idx)
    ensures SubsequenceVia([x] + a, [x] + b, [0] + Shift(idx))
  {
    SkipVia(x, a, b, idx);
    var s := Shift(idx);
    var w := [0] + s;
    forall k | 0 < k < |w|
      ensures 0 <= w[k] < |[x] + b| && ([x] + a)[k] == ([x] + b)[w[k]]
    {
      assert w[k] == s[k - 1];
      assert ([x] + a)[k] == a[k - 1];
    }
  }

  /** The filtered sequence keeps the surviving elements in their original order. */
  lemma {:induction false} FilterIsSubsequence<T>(xs: seq<T>, p: T -> bool)
    ensures IsSubsequence(Filter(xs, p), xs)
  {
    if |xs| == 0 {
      assert SubsequenceVia(Filter(xs, p), xs, []);
    } else {
      var rest := xs[1..];
      FilterIsSubsequence(rest, p);
      var tail := Filter(rest, p);
      var idx :| SubsequenceVia(tail, rest, idx);
      assert xs == [xs[0]] + rest;
      if p(xs[0]) {
        ConsVia(xs[0], tail, rest, idx);
        assert Filter(xs, p) == [xs[0]] + tail;
      } else {
        SkipVia(xs[0], tail, rest, idx);
        assert Filter(xs, p) == tail;
      }
    }
  }

  /** Filtering distributes over concatenation. */
  lemma {:induction false} FilterConcat<T>(a: seq<T>, b: seq<T>, p: T -> bool)
    ensures Filter(a + b, p) == Filter(a, p) + Filter(b, p)
  {
    if |a| == 0 {
      assert a + b == b;
    } else {
      assert (a + b)[1..] == a[1..] + b;
      FilterConcat(a[1..], b, p);
    }
  }

  /** A filter every element passes changes nothing. */
  lemma {:induction false} FilterKeepsAll<T>(xs: seq<T>, p: T -> bool)
    requires forall i :: 0 <= i < |xs| ==> p(xs[i])
    ensures Filter(xs, p) == xs
  {
    if |xs| > 0 {
      FilterKeepsAll(xs[1..], p);
    }
  }

  /** Filtering by `p` then by `q` is filtering once by their conjunction. */
  lemma {:induction false} FilterFilter<T>(xs: seq<T>, p: T -> bool, q: T -> bool, pq: T -> bool)
    requires forall x :: pq(x) == (p(x) && q(x))
    ensures Filter(Filter(xs, p), q) == Filter(xs, pq)
  {
    if |xs| > 0 {
      FilterFilter(xs[1..], p, q, pq);
      if p(xs[0]) {
        assert Filter(xs, p) == [xs[0]] + Filter(xs[1..], p);
        assert Filter(xs, p)[1..] == Filter(xs[1..], p);
      }
    }
  }

  /** Filtering twice by the same predicate is filtering once. */
  lemma FilterIdempotent<T>(xs: seq<T>, p: T -> bool)
    ensures Filter(Filter(xs, p), p) == Filter(xs, p)
  {
    FilterKeepsAll(Filter(xs, p), p);
  }

  // ---------------------------------------------------------------------------
  // slice(0, end)
  // ---------------------------------------------------------------------------

  /** Where `Array.prototype.slice(0, end)` stops on an array of length `len`:
      a negative `end` counts from the back, and both ends are clamped. */
  function SliceEnd(len: nat, end: int): (k: nat)
    ensures k <= len
    ensures end >= 0 ==> k == if end < len then end else len
    ensures end < 0 ==> k == if len + end > 0 then len + end else 0
  {
    if end < 0 then (if len + end > 0 then len + end else 0)
    else if end < len then end
    else len
  }

  /** `xs.slice(0, end)`. */
  function Take<T>(xs: seq<T>, end: int): (r: seq<T>)
    ensures |r| <= |xs| && r == xs[..|r|]
    ensures end >= 0 ==> |r| == if end < |xs| then end else |xs|
  {
    xs[..SliceEnd(|xs|, end)]
  }

  // ---------------------------------------------------------------------------
  // Deleting, inserting, swapping and moving one element
  // ---------------------------------------------------------------------------

  /** The sequence without its element at position `k`. */
  function DeleteAt<T>(xs: seq<T>, k: nat): (r: seq<T>)
    requires k < |xs|
    ensures |r| == |xs| - 1
    ensures forall j :: 0 <= j < k ==> r[j] == xs[j]
    ensures forall j :: k <= j < |r| ==> r[j] == xs[j + 1]
    ensures multiset(r) + multiset{xs[k]} == multiset(xs)
  {
    assert xs == xs[..k] + [xs[k]] + xs[k + 1..];
    xs[..k] + xs[k + 1..]
  }

  /** The sequence with `x` inserted so that it lands at position `k`. */
  function InsertAt<T>(xs: seq<T>, k: nat, x: T): (r: seq<T>)
    requires k <= |xs|
    ensures |r| == |xs| + 1 && r[k] == x
    ensures forall j :: 0 <= j < k ==> r[j] == xs[j]
    ensures forall j :: k < j < |r| ==> r[j] == xs[j - 1]
    ensures multiset(r) == multiset(xs) + multiset{x}
  {
    assert xs == xs[..k] + xs[k..];
    xs[..k] + [x] + xs[k..]
  }

  /** Inserting a deleted element back where it was restores the sequence. */
  lemma InsertDeleted<T>(xs: seq<T>, k: nat)
    requires k < |xs|
    ensures InsertAt(DeleteAt(xs, k), k, xs[k]) == xs
  {
    var r := InsertAt(DeleteAt(xs, k), k, xs[k]);
    assert forall j :: 0 <= j < |xs| ==> r[j] == xs[j];
  }

  /** Deleting an inserted element gives back the sequence it went into. */
  lemma DeleteInserted<T>(xs: seq<T>, k: nat, x: T)
    requires k <= |xs|
    ensures DeleteAt(InsertAt(xs, k, x), k) == xs
  {
    var r := DeleteAt(InsertAt(xs, k, x), k);
    assert forall j :: 0 <= j < |xs| ==> r[j] == xs[j];
  }

  /** Exchanges the elements at positions `i` and `j`. */
  function Swap<T>(xs: seq<T>, i: nat, j: nat): (r: seq<T>)
    requires i < |xs| && j < |xs|
    ensures |r| == |xs| && r[i] == xs[j] && r[j] == xs[i]
    ensures forall k :: 0 <= k < |xs| && k != i && k != j ==> r[k] == xs[k]
    ensures multiset(r) == multiset(xs)
  {
    xs[i := xs[j]][j := xs[i]]
  }

  /** Takes the element at `from` out and puts it back so that it ends at `to`;
      the others keep their relative order. */
  function MoveTo<T>(xs: seq<T>, from: nat, to: nat): (r: seq<T>)
    requires from < |xs| && to < |xs|
    ensures |r| == |xs| && r[to] == xs[from]
    ensures DeleteAt(r, to) == DeleteAt(xs, from)
    ensures multiset(r) == multiset(xs)
  {
    var r := InsertAt(DeleteAt(xs, from), to, xs[from]);
    DeleteInserted(DeleteAt(xs, from), to, xs[from]);
    r
  }

  /** Moving an element from `from` to `to` and then from `to` back to `from`
      restores the original sequence. */
  lemma MoveThereAndBack<T>(xs: seq<T>, from: nat, to: nat)
    requires from < |xs| && to < |xs|
    ensures MoveTo(MoveTo(xs, from, to), to, from) == xs
  {
    var r := MoveTo(xs, from, to);
    assert MoveTo(r, to, from) == InsertAt(DeleteAt(xs, from), from, xs[from]);
    InsertDeleted(xs, from);
  }

  // ---------------------------------------------------------------------------
  // Distinct elements
  // ---------------------------------------------------------------------------

  /** No element occurs twice. */
  predicate NoDuplicates<T(==)>(xs: seq<T>) {
    forall i, j :: 0 <= i < j < |xs| ==> xs[i] != xs[j]
  }

  /** The distinct elements of `xs` in order of first occurrence, the way
      filling a JavaScript `Set` and reading it back produces them. */
  function Distinct<T(==)>(xs: seq<T>): (r: seq<T>)
    ensures NoDuplicates(r)
    ensures forall i :: 0 <= i < |r| ==> r[i] in xs
    ensures forall i :: 0 <= i < |xs| ==> xs[i] in r
  {
    if |xs| == 0 then []
    else
      var d := Distinct(xs[..|xs| - 1]);
      assert xs == xs[..|xs| - 1] + [xs[|xs| - 1]];
      if xs[|xs| - 1] in d then d else d + [xs[|xs| - 1]]
  }

  // ---------------------------------------------------------------------------
  // Removing by index: `filter((_, i) => i !== k)` and `splice(k, 1)`
  // ---------------------------------------------------------------------------

  /** The sequence without position `k`, or unchanged when `k` is not a
      position of it. */
  function RemoveIndex<T>(xs: seq<T>, k: int): (r: seq<T>)
    ensures |r| == if 0 <= k < |xs| then |xs| - 1 else |xs|
    ensures forall j :: 0 <= j < |r| && (j < k || k < 0) ==> r[j] == xs[j]
    ensures forall j :: 0 <= j < |r| && 0 <= k <= j ==> r[j] == xs[j + 1]
  {
    if 0 <= k < |xs| then DeleteAt(xs, k) else xs
  }

  /** `xs.filter((_, i) => i !== k)` written out as the walk `filter` makes,
      `at` being the index of `xs[0]` in the array being filtered. */
  function FilterIndex<T>(xs: seq<T>, k: int, at: int): seq<T>
    decreases |xs|
  {
    if xs == [] then []
    else (if at == k then [] else [xs[0]]) + FilterIndex(xs[1..], k, at + 1)
  }

  /** Removing a later position commutes with a leading element. */
  lemma RemoveIndexCons<T>(x: T, t: seq<T>, j: int)
    requires 0 < j
    ensures RemoveIndex([x] + t, j) == [x] + RemoveIndex(t, j - 1)
  {
    var l := RemoveIndex([x] + t, j);
    var r := [x] + RemoveIndex(t, j - 1);
    assert |l| == |r|;
    forall i | 0 <= i < |l| ensures l[i] == r[i] {
      if i > 0 {
        assert r[i] == RemoveIndex(t, j - 1)[i - 1];
      }
    }
  }

  /** The filter walk and `RemoveIndex` agree. */
  lemma {:induction false} FilterIndexRemoves<T>(xs: seq<T>, k: int, at: int)
    ensures FilterIndex(xs, k, at) == RemoveIndex(xs, k - at)
    decreases |xs|
  {
    if xs != [] {
      var t := xs[1..];
      FilterIndexRemoves(t, k, at + 1);
      assert xs == [xs[0]] + t;
      if at == k {
        assert RemoveIndex(t, k - at - 1) == t;
        assert RemoveIndex(xs, 0) == t;
      } else if 0 < k - at {
        RemoveIndexCons(xs[0], t, k - at);
      } else {
        assert RemoveIndex(t, k - at - 1) == t;
        assert RemoveIndex(xs, k - at) == xs;
      }
    }
  }

  /** The start position `splice` uses for `start`: counted from the end when
      negative, and clamped to `[0, len]`. */
  function SpliceStart(len: nat, start: int): (s: nat)
    ensures s <= len
    ensures 0 <= start ==> s == if start < len then start else len
    ensures start < 0 ==> s == if len + start > 0 then len + start else 0
  {
    if start < 0 then (if len + start > 0 then len + start else 0)
    else if start < len then start else len
  }

  /** `next.splice(k, 1)`: removes one element at the normalised start, if
      there is one there. */
  function SpliceOut<T>(xs: seq<T>, k: int): (r: seq<T>)
    ensures SpliceStart(|xs|, k) < |xs| ==> r == DeleteAt(xs, SpliceStart(|xs|, k))
    ensures SpliceStart(|xs|, k) == |xs| ==> r == xs
  {
    var s := SpliceStart(|xs|, k);
    if s < |xs| then DeleteAt(xs, s) else xs
  }

  /** The two removals agree on non-negative indices and differ on negative
      ones, where `splice` counts from the end and `filter` removes nothing. */
  lemma SpliceOutVersusRemoveIndex<T>(xs: seq<T>, k: int)
    ensures 0 <= k ==> SpliceOut(xs, k) == RemoveIndex(xs, k)
    ensures -|xs| <= k < 0 ==> SpliceOut(xs, k) == RemoveIndex(xs, |xs| + k)
    ensures k < 0 ==> RemoveIndex(xs, k) == xs
  {
  }

  // ---------------------------------------------------------------------------
  // Appending under a cap: `[...xs, ...ys].slice(0, cap)`
  // ---------------------------------------------------------------------------

  /** Appending under a cap keeps a prefix of the concatenation no longer than
      the cap; the old elements keep their positions while they fit, and
      nothing is dropped when everything fits. */
  lemma CappedAppend<T>(xs: seq<T>, ys: seq<T>, cap: int)
    requires cap >= 0
    ensures var r := Take(xs + ys, cap);
      && |r| == (if cap < |xs| + |ys| then cap else |xs| + |ys|)
      && r == (xs + ys)[..|r|]
      && (|xs| <= cap ==> r[..|xs|] == xs)
      && (|xs| + |ys| <= cap ==> r == xs + ys)
      && (cap <= |xs| ==> r == xs[..cap])
  {
    var r := Take(xs + ys, cap);
    if |xs| <= cap {
      assert r[..|xs|] == (xs + ys)[..|xs|];
    }
    if cap <= |xs| {
      assert (xs + ys)[..cap] == xs[..cap];
    }
  }
}

=== FILE: storage.dfy ===
/** Photo upload paths and index-aligned upload results (lib/storage.ts).
    The upload itself is an abstract function from (path, file) to a download
    URL, or `None` when that upload fails. */
module Storage {
  import opened Wrappers
  import opened Text
  import opened Decimal
  import opened Model

  /** `name.replace(/\s+/g, "-")`: each maximal run of white space becomes a
      single hyphen. */
  function SafeName(name: string): (r: string)
    ensures NoSpace(r)
    ensures |r| <= |name|
    ensures NoSpace(name) ==> r == name
  {
    Sanitize(name, false)
  }

  /** The left-to-right scan behind `SafeName`; `inRun` says whether the
      character before `s` was white space, whose run already produced its
      hyphen. */
  function Sanitize(s: string, inRun: bool): (r: string)
    ensures NoSpace(r)
    ensures |r| <= |s|
    ensures NoSpace(s) ==> r == s
  {
    if |s| == 0 then ""
    else if IsSpace(s[0]) then
      (if inRun then "" else "-") + Sanitize(s[1..], true)
    else [s[0]] + Sanitize(s[1..], false)
  }

  /** Whether the scan is inside a white-space run after reading `a`. */
  function RunAfter(a: string, inRun: bool): bool {
    if |a| == 0 then inRun else IsSpace(a[|a| - 1])
  }

  /** What the scan emits for one character `c`. */
  function Emit(c: char, inRun: bool): string {
    if IsSpace(c) then (if inRun then "" else "-") else [c]
  }

  /** One step of the scan. */
  lemma SanitizeStep(s: string, inRun: bool)
    requires |s| > 0
    ensures Sanitize(s, inRun) == Emit(s[0], inRun) + Sanitize(s[1..], IsSpace(s[0]))
  {
  }

  /** The scan over `a + c` is the scan over `a` followed by the scan over `c`
      from the state `a` left it in. */
  lemma {:induction false} SanitizeConcat(a: string, c: string, inRun: bool)
    ensures Sanitize(a + c, inRun) == Sanitize(a, inRun) + Sanitize(c, RunAfter(a, inRun))
  {
    if |a| > 0 {
      var next := IsSpace(a[0]);
      var e := Emit(a[0], inRun);
      var mid := Sanitize(a[1..], next);
      var tail := Sanitize(c, RunAfter(a, inRun));
      assert (a + c)[0] == a[0];
      assert (a + c)[1..] == a[1..] + c;
      assert RunAfter(a[1..], next) == RunAfter(a, inRun);
      calc {
        Sanitize(a + c, inRun);
        == { SanitizeStep(a + c, inRun); }
        e + Sanitize(a[1..] + c, next);
        == { SanitizeConcat(a[1..], c, next); }
        e + (mid + tail);
        ==
        (e + mid) + tail;
        == { SanitizeStep(a, inRun); }
        Sanitize(a, inRun) + tail;
      }
    } else {
      assert a + c == c;
    }
  }

  /** A white-space run read in one state or the other yields the same output
      once the next character is not white space. */
  lemma {:induction false} SanitizeRun(w: string, b: string, inRun: bool)
    requires |w| > 0 && AllSpace(w)
    ensures Sanitize(w + b, inRun) == (if inRun then "" else "-") + Sanitize(b, true)
  {
    SanitizeConcat(w, b, inRun);
    SanitizeAllSpace(w, inRun);
  }

  /** A non-empty run of white space yields one hyphen, or nothing when the
      scan is already in a run. */
  lemma {:induction false} SanitizeAllSpace(w: string, inRun: bool)
    requires |w| > 0 && AllSpace(w)
    ensures Sanitize(w, inRun) == if inRun then "" else "-"
    ensures RunAfter(w, inRun)
  {
    if |w| > 1 {
      SanitizeAllSpace(w[1..], true);
    }
  }

  /** A white-space run between a part that does not end in white space and a
      part that does not start with it collapses to exactly one hyphen. */
  lemma SafeNameCollapsesRun(a: string, w: string, b: string)
    requires a == [] || !IsSpace(a[|a| - 1])
    requires |w| > 0 && AllSpace(w)
    requires b == [] || !IsSpace(b[0])
    ensures SafeName(a + w + b) == SafeName(a) + "-" + SafeName(b)
  {
    var x, y := Sanitize(a, false), Sanitize(b, false);
    assert Sanitize(b, true) == y by {
      if |b| > 0 {
        assert !IsSpace(b[0]);
      }
    }
    assert Sanitize(w + b, false) == "-" + y by {
      SanitizeRun(w, b, false);
    }
    assert Sanitize(a + (w + b), false) == x + Sanitize(w + b, false) by {
      SanitizeConcat(a, w + b, false);
      assert !RunAfter(a, false);
    }
    assert a + w + b == a + (w + b);
    assert x + ("-" + y) == x + "-" + y;
  }

  /** `listings/{uid}/{listingId}/{index}-{safeName}`. */
  function PathFor(uid: string, listingId: string, index: nat, name: string): string {
    "listings/" + uid + "/" + listingId + "/" + NatToString(index) + "-" + SafeName(name)
  }

  /** Two files of one listing never share a path: the `{index}-` part of the
      last segment tells them apart. */
  lemma PathsDistinct(uid: string, listingId: string, i: nat, j: nat, n1: string, n2: string)
    requires i != j
    ensures PathFor(uid, listingId, i, n1) != PathFor(uid, listingId, j, n2)
  {
    var pre := "listings/" + uid + "/" + listingId + "/";
    var di, dj := NatToString(i), NatToString(j);
    var p1 := pre + di + "-" + SafeName(n1);
    var p2 := pre + dj + "-" + SafeName(n2);
    assert PathFor(uid, listingId, i, n1) == p1;
    assert PathFor(uid, listingId, j, n2) == p2;
    RenderInjective(i, j);
    if |di| == |dj| {
      var k :| 0 <= k < |di| && di[k] != dj[k];
      assert p1[|pre| + k] == di[k];
      assert p2[|pre| + k] == dj[k];
    } else if |di| < |dj| {
      assert p1[|pre| + |di|] == '-';
      assert p2[|pre| + |di|] == dj[|di|];
    } else {
      assert p2[|pre| + |dj|] == '-';
      assert p1[|pre| + |dj|] == di[|dj|];
    }
  }

  /** The storage path of every file, in input order. */
  function Paths(uid: string, listingId: string, files: seq<File>): (r: seq<string>)
    ensures |r| == |files|
    ensures forall i :: 0 <= i < |files| ==> r[i] == PathFor(uid, listingId, i, files[i].name)
  {
    seq(|files|, i requires 0 <= i < |files| => PathFor(uid, listingId, i, files[i].name))
  }

  /** Uploads every file to its own path; `None` as soon as one upload fails,
      as `Promise.all` rejects. */
  function UploadEach(paths: seq<string>, files: seq<File>, upload: (string, File) -> Option<string>)
    : (r: Option<seq<string>>)
    requires |paths| == |files|
    ensures r.Some? <==> forall i :: 0 <= i < |files| ==> upload(paths[i], files[i]).Some?
    ensures r.Some? ==> |r.value| == |files|
    ensures r.Some? ==> forall i :: 0 <= i < |files| ==> upload(paths[i], files[i]) == Some(r.value[i])
  {
    if |files| == 0 then Some([])
    else
      match upload(paths[0], files[0])
      case None => None
      case Some(url) =>
        match UploadEach(paths[1..], files[1..], upload)
        case None =>
          assert exists i :: 1 <= i < |files| && upload(paths[i], files[i]).None? by {
            var i :| 0 <= i < |files| - 1 && upload(paths[1..][i], files[1..][i]).None?;
            assert upload(paths[i + 1], files[i + 1]).None?;
          }
          None
        case Some(rest) => Some([url] + rest)
  }

  /** The download URLs and storage paths of one listing's photos. */
  datatype Uploaded = Uploaded(urls: seq<string>, paths: seq<string>)

  /** `uploadListingImages`: both result arrays are aligned with the input, so
      `urls[i]` and `paths[i]` belong to `files[i]` whatever order the uploads
      finish in. */
  function UploadListingImages(uid: string, listingId: string, files: seq<File>,
                               upload: (string, File) -> Option<string>): (r: Option<Uploaded>)
    ensures r.Some? <==> forall i :: 0 <= i < |files| ==> upload(PathFor(uid, listingId, i, files[i].name), files[i]).Some?
    ensures r.Some? ==> |r.value.urls| == |files| && |r.value.paths| == |files|
    ensures r.Some? ==> forall i :: 0 <= i < |files| ==>
              && r.value.paths[i] == PathFor(uid, listingId, i, files[i].name)
              && upload(r.value.paths[i], files[i]) == Some(r.value.urls[i])
  {
    var paths := Paths(uid, listingId, files);
    match UploadEach(paths, files, upload)
    case None => None
    case Some(urls) => Some(Uploaded(urls, paths))
  }
}

=== FILE: text.dfy ===
/** The JavaScript string primitives the application leans on: the `\s`
    white-space class (which `trim` shares), `trim`, `toLowerCase`, `\d`, `\w`,
    `startsWith` and `includes`. Strings are sequences of Unicode scalar
    values; JavaScript counts a character outside the Basic Multilingual
    Plane as two code units, which no property here depends on. */
module Text {

  /** JavaScript's white space and line terminators: the characters `\s`
      matches and `trim` strips. */
  predicate IsSpace(c: char) {
    || c == ' ' || c == '\t' || c == '\n' || c == '\U{000B}' || c == '\U{000C}' || c == '\r'
    || c == '\U{00A0}' || c == '\U{1680}' || ('\U{2000}' <= c <= '\U{200A}')
    || c == '\U{2028}' || c == '\U{2029}' || c == '\U{202F}' || c == '\U{205F}'
    || c == '\U{3000}' || c == '\U{FEFF}'
  }

  /** `\d`: ASCII decimal digits only. */
  predicate IsDigit(c: char) {
    '0' <= c <= '9'
  }

  /** `\w`: ASCII letters, digits and underscore. */
  predicate IsWordChar(c: char) {
    ('a' <= c <= 'z') || ('A' <= c <= 'Z') || IsDigit(c) || c == '_'
  }

  predicate AllSpace(s: string) {
    forall i :: 0 <= i < |s| ==> IsSpace(s[i])
  }

  predicate NoSpace(s: string) {
    forall i :: 0 <= i < |s| ==> !IsSpace(s[i])
  }

  predicate AllDigits(s: string) {
    forall i :: 0 <= i < |s| ==> IsDigit(s[i])
  }

  // ---------------------------------------------------------------------------
  // trim
  // ---------------------------------------------------------------------------

  /** Where the text of `s[..k]` ends: `k` less the white space just before
      it. */
  function TextEnd(s: string, k: nat): (e: nat)
    requires k <= |s|
    ensures e <= k
    ensures forall i :: e <= i < k ==> IsSpace(s[i])
    ensures e > 0 ==> !IsSpace(s[e - 1])
  {
    if k > 0 && IsSpace(s[k - 1]) then TextEnd(s, k - 1) else k
  }

  /** Where the text of `s[k..e]` starts: `k` plus the white space at it. */
  function TextStart(s: string, k: nat, e: nat): (b: nat)
    requires k <= e <= |s|
    decreases e - k
    ensures k <= b <= e
    ensures forall i :: k <= i < b ==> IsSpace(s[i])
    ensures b < e ==> !IsSpace(s[b])
  {
    if k < e && IsSpace(s[k]) then TextStart(s, k + 1, e) else k
  }

  /** `trim`: the middle of `s` between its leading and trailing white space. */
  function Trim(s: string): (r: string)
    ensures |r| <= |s|
    ensures r == [] || (!IsSpace(r[0]) && !IsSpace(r[|r| - 1]))
    ensures r == [] <==> AllSpace(s)
  {
    var e := TextEnd(s, |s|);
    var b := TextStart(s, 0, e);
    assert b == e ==> AllSpace(s);
    s[b..e]
  }

  /** What `trim` removes is white space at the two ends, and nothing else. */
  lemma TrimIsMiddle(s: string)
    ensures var r := Trim(s);
      exists i :: 0 <= i <= |s| - |r| && r == s[i..i + |r|]
                  && AllSpace(s[..i]) && AllSpace(s[i + |r|..])
  {
    var e := TextEnd(s, |s|);
    var b := TextStart(s, 0, e);
    assert Trim(s) == s[b..e];
    assert AllSpace(s[..b]);
    assert AllSpace(s[e..]);
  }

  /** A string the source treats as missing: empty after `trim`. */
  predicate Blank(s: string) {
    Trim(s) == []
  }

  /** Trimming a string with no white space at either end changes nothing. */
  lemma TrimUntrimmable(s: string)
    requires s == [] || (!IsSpace(s[0]) && !IsSpace(s[|s| - 1]))
    ensures Trim(s) == s
  {
    assert TextEnd(s, |s|) == |s|;
    assert TextStart(s, 0, |s|) == 0;
    assert s[0..|s|] == s;
  }

  /** `trim` is idempotent. */
  lemma TrimIdempotent(s: string)
    ensures Trim(Trim(s)) == Trim(s)
  {
    TrimUntrimmable(Trim(s));
  }

  /** A string without white space is its own trim. */
  lemma TrimNoSpace(s: string)
    requires NoSpace(s)
    ensures Trim(s) == s
  {
    TrimUntrimmable(s);
  }

  // ---------------------------------------------------------------------------
  // toLowerCase
  // ---------------------------------------------------------------------------

  /** Lower-case of one character: the ASCII capitals and the Latin-1
      capitals U+00C0..U+00DE (except U+00D7) move down by 0x20. */
  function LowerChar(c: char): (d: char)
    ensures !('A' <= d <= 'Z')
    ensures IsSpace(d) <==> IsSpace(c)
    ensures IsDigit(d) <==> IsDigit(c)
  {
    if ('A' <= c <= 'Z') || ('\U{00C0}' <= c <= '\U{00DE}' && c != '\U{00D7}')
    then (c as int + 32) as char
    else c
  }

  /** `toLowerCase`, character by character. */
  function Lower(s: string): (r: string)
    ensures |r| == |s|
    ensures forall i :: 0 <= i < |s| ==> r[i] == LowerChar(s[i])
  {
    seq(|s|, i requires 0 <= i < |s| => LowerChar(s[i]))
  }

  /** Lower-casing distributes over concatenation. */
  lemma LowerConcat(a: string, b: string)
    ensures Lower(a + b) == Lower(a) + Lower(b)
  {
  }

  // ---------------------------------------------------------------------------
  // startsWith and includes
  // ---------------------------------------------------------------------------

  /** `s.startsWith(prefix)`. */
  predicate StartsWith(s: string, prefix: string) {
    |prefix| <= |s| && s[..|prefix|] == prefix
  }

  /** `needle` occurs in `hay` starting at position `i`. */
  predicate OccursAt(hay: string, needle: string, i: int) {
    0 <= i && i + |needle| <= |hay| && hay[i..i + |needle|] == needle
  }

  /** `hay.includes(needle)`, by a left-to-right scan. */
  function Contains(hay: string, needle: string): (r: bool)
    ensures r <==> exists i :: OccursAt(hay, needle, i)
    decreases |hay|
  {
    if |needle| == 0 then
      assert OccursAt(hay, needle, 0);
      true
    else if |hay| < |needle| then
      false
    else if hay[..|needle|] == needle then
      assert OccursAt(hay, needle, 0);
      true
    else
      var r := Contains(hay[1..], needle);
      ContainsShift(hay, needle);
      r
  }

  /** Occurrences past the first position of `hay` are the occurrences in its
      tail, shifted by one. */
  lemma ContainsShift(hay: string, needle: string)
    requires |hay| > 0 && |needle| > 0
    requires !OccursAt(hay, needle, 0)
    ensures (exists i :: OccursAt(hay, needle, i)) <==> (exists i :: OccursAt(hay[1..], needle, i))
  {
    forall i | OccursAt(hay, needle, i)
      ensures OccursAt(hay[1..], needle, i - 1)
    {
      assert i != 0;
      assert hay[1..][i - 1..i - 1 + |needle|] == hay[i..i + |needle|];
    }
    forall i | OccursAt(hay[1..], needle, i)
      ensures OccursAt(hay, needle, i + 1)
    {
      assert hay[1..][i..i + |needle|] == hay[i + 1..i + 1 + |needle|];
    }
  }

  /** Text found in a string is found in any extension of it. */
  lemma ContainsExtended(a: string, b: string, needle: string)
    requires Contains(a, needle)
    ensures Contains(a + b, needle)
  {
    var i :| OccursAt(a, needle, i);
    assert (a + b)[i..i + |needle|] == a[i..i + |needle|];
    assert OccursAt(a + b, needle, i);
  }
}

=== FILE: toast_flag.dfy ===
/** The one-shot toast hand-off between pages (lib/toast-flag.ts): a single
    storage slot written by `setNextToast` and read-and-cleared by
    `consumeNextToast`. The stored JSON text is modelled by what parsing it
    yields. */
module ToastFlag {
  import opened Wrappers

  datatype ToastKind = Success | Error | Info

  /** The slot's content: no item, an empty string, text that is not JSON,
      or a parsed object with its `message`, `type` and `at` fields (each
      possibly missing). */
  datatype Slot =
    | Empty
    | EmptyText
    | Unparsable
    | Stored(message: Option<string>, kind: Option<ToastKind>, at: Option<int>)

  datatype Toast = Toast(message: string, kind: ToastKind)

  /** `setNextToast(message, type = "success")`; without a window nothing is
      written. `now` stands for `Date.now()`. */
  function SetNextToast(slot: Slot, hasWindow: bool, message: string, kind: Option<ToastKind>, now: int): (r: Slot)
    ensures !hasWindow ==> r == slot
    ensures hasWindow ==> r.Stored? && r.message == Some(message) && r.kind.Some?
    ensures hasWindow && kind.None? ==> r.kind == Some(Success)
    ensures hasWindow && kind.Some? ==> r.kind == kind
  {
    if !hasWindow then slot else Stored(Some(message), Some(kind.GetOr(Success)), Some(now))
  }

  /** `consumeNextToast`: without a window, or with an empty slot, nothing is
      read and nothing cleared; any other content is removed, and a toast is
      returned only for a parsed object with a non-empty message. */
  function ConsumeNextToast(slot: Slot, hasWindow: bool): (r: (Option<Toast>, Slot))
    ensures !hasWindow ==> r == (None, slot)
    ensures hasWindow && (slot.Empty? || slot.EmptyText?) ==> r == (None, slot)
    ensures hasWindow && !slot.Empty? && !slot.EmptyText? ==> r.1 == Empty
    ensures r.0.Some? <==> hasWindow && slot.Stored? && slot.message.Some? && slot.message.value != ""
    ensures r.0.Some? ==> r.0.value == Toast(slot.message.value, slot.kind.GetOr(Success))
  {
    if !hasWindow then (None, slot)
    else match slot
      case Empty => (None, slot)
      case EmptyText => (None, slot)
      case Unparsable => (None, Empty)
      case Stored(m, k, _) =>
        if m.None? || m.value == "" then (None, Empty)
        else (Some(Toast(m.value, k.GetOr(Success))), Empty)
  }

  /** A toast set with a non-empty message is read back once, with its kind
      ("success" when none was given). */
  lemma SetThenConsume(slot: Slot, message: string, kind: Option<ToastKind>, now: int)
    requires message != ""
    ensures var (t, after) := ConsumeNextToast(SetNextToast(slot, true, message, kind, now), true);
      t == Some(Toast(message, kind.GetOr(Success))) && after == Empty
  {
  }

  /** Whatever the slot held, a second read finds nothing. */
  lemma ConsumeTwice(slot: Slot, hasWindow: bool)
    ensures ConsumeNextToast(ConsumeNextToast(slot, hasWindow).1, hasWindow).0 == None
  {
  }

  /** An object without a message, or text that is not JSON, yields nothing
      but is cleared all the same. */
  lemma BadEntriesCleared(kind: Option<ToastKind>, at: Option<int>)
    ensures ConsumeNextToast(Stored(None, kind, at), true) == (None, Empty)
    ensures ConsumeNextToast(Stored(Some(""), kind, at), true) == (None, Empty)
    ensures ConsumeNextToast(Unparsable, true) == (None, Empty)
  {
  }
}

=== FILE: uploader.dfy ===
/** The reusable photo picker (app/components/ImageUploader.tsx): image-only
    appends under a cap, removal by `splice` and drag-and-drop moves. A
    `None` result means `onChange` is not called. */
module Uploader {
  import opened Wrappers
  import opened Text
  import opened Seqs
  import opened Model

  /** `maxFiles` when the caller passes none. */
  const DefaultMaxFiles: int := 10

  /** `f.type.startsWith("image/")`. */
  predicate IsImage(f: File) {
    StartsWith(f.mime, "image/")
  }

  /** `addFiles`: keeps the image files of the pick, appends them and cuts the
      list to `maxFiles`. Nothing is reported when there was no file list or
      it held no image. */
  function AddFiles(value: seq<File>, files: Option<seq<File>>, maxFiles: int): (r: Option<seq<File>>)
    ensures r.None? <==> files.None? || forall i :: 0 <= i < |files.value| ==> !IsImage(files.value[i])
    ensures r.Some? ==>
              var incoming := Filter(files.value, IsImage);
              && |r.value| <= |value| + |incoming|
              && r.value == (value + incoming)[..|r.value|]
              && (maxFiles >= 0 ==> |r.value| == if |value| + |incoming| < maxFiles then |value| + |incoming| else maxFiles)
              && forall i :: |value| <= i < |r.value| ==> IsImage(r.value[i])
  {
    match files
    case None => None
    case Some(list) =>
      var incoming := Filter(list, IsImage);
      if |incoming| == 0 then None
      else
        var next := value + incoming;
        var r := Take(next, maxFiles);
        assert IsImage(incoming[0]) && incoming[0] in list;
        assert forall i :: |value| <= i < |r| ==> r[i] == incoming[i - |value|];
        Some(r)
  }

  /** Adding files never drops one already in the list while the list is
      within the cap, and adds at least one while there is room. */
  lemma AddFilesKeepsExisting(value: seq<File>, files: seq<File>, maxFiles: int)
    requires |value| <= maxFiles
    requires AddFiles(value, Some(files), maxFiles).Some?
    ensures var r := AddFiles(value, Some(files), maxFiles).value;
      && |value| <= |r| <= maxFiles && r[..|value|] == value
      && (|value| < maxFiles ==> |value| < |r|)
  {
    var r := AddFiles(value, Some(files), maxFiles).value;
    var incoming := Filter(files, IsImage);
    assert |incoming| > 0;
    assert r[..|value|] == (value + incoming)[..|value|];
  }

  /** With the default cap of ten, a picker that starts within the cap
      stays within it and keeps its old files first. */
  lemma AddFilesDefaultCap(value: seq<File>, files: seq<File>)
    requires |value| <= DefaultMaxFiles
    ensures var r := AddFiles(value, Some(files), DefaultMaxFiles);
      r.Some? ==> |r.value| <= DefaultMaxFiles && r.value[..|value|] == value
  {
    if AddFiles(value, Some(files), DefaultMaxFiles).Some? {
      AddFilesKeepsExisting(value, files, DefaultMaxFiles);
    }
  }

  /** `removeAt(index)`: `splice(index, 1)` on a copy; a negative index counts
      from the end, an index past the end removes nothing. */
  function RemoveAt(value: seq<File>, index: int): (r: seq<File>)
    ensures var s := SpliceStart(|value|, index);
      && (s < |value| ==>
            && |r| == |value| - 1
            && r[..s] == value[..s] && r[s..] == value[s + 1..]
            && multiset(r) + multiset{value[s]} == multiset(value))
      && (s == |value| ==> r == value)
  {
    var s := SpliceStart(|value|, index);
    if s < |value| then
      var r := SpliceOut(value, index);
      assert r[..s] == value[..s];
      assert r[s..] == value[s + 1..];
      r
    else SpliceOut(value, index)
  }

  /** `move(from, to)`: nothing when `to` is not a position; otherwise the
      element at `from` (counted from the end when negative) is taken out and
      put back so that it ends at `to`. A `from` past the end would insert
      `undefined` into the file list, which the drag handlers never do. */
  function Move(value: seq<File>, from: int, to: int): (r: seq<File>)
    requires 0 <= to < |value| ==> from < |value|
    ensures !(0 <= to < |value|) ==> r == value
    ensures 0 <= to < |value| ==>
              var s := SpliceStart(|value|, from);
              && s < |value|
              && |r| == |value| && r[to] == value[s]
              && DeleteAt(r, to) == DeleteAt(value, s)
              && multiset(r) == multiset(value)
  {
    if to < 0 || to >= |value| then value
    else MoveTo(value, SpliceStart(|value|, from), to)
  }

  /** Dragging an element one place up and back down restores the list. */
  lemma MoveBack(value: seq<File>, i: nat)
    requires 1 <= i < |value|
    ensures Move(Move(value, i, i - 1), i - 1, i) == value
  {
    MoveThereAndBack(value, i, i - 1);
  }
}

=== FILE: users.dfy ===
/** `ensureUserDoc` (lib/users.ts): creates a profile only when none exists. */
module Users {
  import opened Wrappers
  import opened Model

  /** The profile a first call writes: the email, the free plan and a zero
      counter, stamped with the server time. */
  function FreshProfile(email: string, now: Timestamp): ProfileDoc {
    ProfileDoc(email := Some(email), plan := Some("free"), freeListingsUsed := Some(0),
               whatsapp := None, createdAt := Some(now))
  }

  /** `ensureUserDoc(uid, email)`: read the profile and write a fresh one only
      if the read found nothing. `now` stands for `serverTimestamp()`. */
  function EnsureUserDoc(db: Db, uid: string, email: string, now: Timestamp): (r: Db)
    ensures uid in r.users
    ensures uid in db.users ==> r == db
    ensures uid !in db.users ==>
              && r.users[uid].email == Some(email)
              && r.users[uid].plan == Some("free")
              && r.users[uid].freeListingsUsed == Some(0)
    ensures r.listings == db.listings
    ensures r.users.Keys == db.users.Keys + {uid}
    ensures forall u :: u in db.users ==> r.users[u] == db.users[u]
  {
    if uid in db.users then db
    else db.(users := db.users[uid := FreshProfile(email, now)])
  }

  /** A second call, with any email and any time, changes nothing. */
  lemma EnsureUserDocIdempotent(db: Db, uid: string, e1: string, e2: string, t1: Timestamp, t2: Timestamp)
    ensures var once := EnsureUserDoc(db, uid, e1, t1);
      EnsureUserDoc(once, uid, e2, t2) == once
  {
  }

  /** The call only ever adds: applied in either order to two different
      uids, the result is the same. (For one uid the first email wins.) */
  lemma EnsureUserDocCommutes(db: Db, u1: string, u2: string, e1: string, e2: string, now: Timestamp)
    requires u1 != u2
    ensures EnsureUserDoc(EnsureUserDoc(db, u1, e1, now), u2, e2, now)
         == EnsureUserDoc(EnsureUserDoc(db, u2, e2, now), u1, e1, now)
  {
    var a := EnsureUserDoc(EnsureUserDoc(db, u1, e1, now), u2, e2, now);
    var b := EnsureUserDoc(EnsureUserDoc(db, u2, e2, now), u1, e1, now);
    assert a.users.Keys == b.users.Keys;
    forall u | u in a.users ensures a.users[u] == b.users[u] {
    }
    assert a.users == b.users;
  }
}

=== FILE: wrappers.dfy ===
/** Optional values and success/failure results, standing in for the source's
    `undefined`/`null` and its thrown errors. */
module Wrappers {

  /** A value that may be absent (`undefined` or `null` in the source). */
  datatype Option<+T> = None | Some(value: T) {

    /** The value, or `default` when absent (the source's `x ?? default`). */
    function GetOr(default: T): T {
      match this
      case Some(v) => v
      case None => default
    }
  }

  /** The outcome of an operation that either returns a value or throws. */
  datatype Result<+T, +E> = Ok(value: T) | Err(error: E)
}
